=== FILE: README.md ===
# Name-flash video generator — a Dafny model of its core

The generator takes a text file of names and writes a video: each name is
drawn near the centre of a background and shown for a fixed time. The background
can be a solid colour, a still image or a frame taken from a video. A
desktop form gathers the settings, checks them and starts a worker. The
worker then writes `int(interval * fps)` identical frames per name and
sets the progress bar's value after every frame.

The repository holds two versions of this core:

- `main.py` is the current one. Its form has separate width and height
  fields. Its video mode seeks to a random frame for every name, retries at
  frame 0, and resizes the frame to the output size.
- `mian.py` is the earlier one. Its form reads the size from one
  `"width,height"` field. Its video mode uses the first frame of the video,
  at the video's own size.

This project models both workers, `generate_name_video`, and both form
checks, `generate_video`. It proves what they guarantee:

- **Frames.** Frames are written in name order, `frames_per_name` copies
  each. Blank names are kept.
- **Progress.** The values the worker sets on the progress variable rise
  strictly and stay in (0, 100]. After a successful run that wrote frames the
  last of them is 100; a failed run stops below that. The division is never
  reached with a zero total.
- **Placement.** The drawing origin centres the width and height of the
  name's bounding box by floor division, to within one pixel, even when the
  name is wider than the frame. The box's own left and top offsets are not
  subtracted, so the drawn text sits off centre by exactly those offsets
  (`Layout.DrawnBoxOffset`).
- **Backgrounds.** Each mode follows its background rule, including the
  black fallbacks. The conversion for the writer (`main.py:160`,
  `mian.py:55`) still fails a run whose frame has no pixels (a width or
  height of 0, which `Image.new` accepts), and an image run whose picture
  has one or two channels.
- **Notices and writer.** Every click ends with exactly one message box.
  The writer is released exactly when the run succeeds.
- **Captures.** Video captures are released except on the failing name.
- **Validation.** The form checks run in their fixed order and round-trip:
  a job written into the form is read back unchanged.

Every library call is an oracle in the `Env` record:

- reading the name file, loading the font and parsing colours;
- `Image.new`, opening and resizing images;
- the video's frame count and frame reads, and `cv2.resize`;
- whether a picture file decodes to 3 or 4 channels, which
  `cv2.cvtColor(..., COLOR_RGB2BGR)` needs;
- the text bounding box;
- the random draw.

The model therefore claims nothing about pixels or codecs. The random start
frame is `draw(i) % frame_count`, and `MainRun.AnyStartFrame` shows that
every offset in range can occur.

Module layout:

- `Lines` splits text the way `str.splitlines` and `str.split(',')` do.
- `Numerals` covers `int()` and `float()` on decimal text, and `str()` of an
  integer.
- `Schedule` holds the per-name frame count, the frame stream and the
  progress values.
- `Layout` does the centring.
- `Pipeline` is the worker loop both versions share. It has a declarative
  trace, `Expected`, and the loop as written, `Generate` and `WriteNames`.
- `Runs` holds the properties of every run, whatever the background rule.
- `MainRun` and `OldRun` give each version's background rule.
- `Controls` covers the button click.
- `MainForm` and `OldForm` are each version's checks.
- `Scenarios` works through concrete runs.

Three facts about the code shape the model:

- The video writer is released only on the success path (`main.py:169`,
  `mian.py:64`). After a failure it is left open.
- The still image is opened and resized again for every name
  (`main.py:121`). It is not cached.
- `frames_per_name` truncates toward zero. It does not round.

The current form has three video labels, and no two of them agree:

- the mode list offers `视频（暂不支持）` ("not supported yet");
- the check asks for a background file under `视频（存在bug，有能力的解决）`;
- the worker's video branch tests for `视频（循环播放）`.

The model keeps all three strings. A mode is `Solid | Image | Video | Other(label)`,
and a label no branch matches ends a run that has names with the unbound-`img`
failure. The current mode list is read-only, so the video branch cannot be
reached from the form. The earlier form's list entry
`视频（存在bug，有能力的解决）` also misses its worker's `视频` branch. That list is
editable, though, so a user who types `视频` does reach the video branch.

## Model

| member | source | states |
|---|---|---|
| Schedule.FramesPerName | main.py:112 | the frame count per name is `interval * fps` truncated toward zero: within one below a non-negative product and within one above a negative one |
| Schedule.FramesPerNameTowardZero | main.py:112 | truncation never moves away from zero or changes the sign, and a product strictly between -1 and 1 gives no frames |
| Schedule.Repeat | main.py:162-163 | `range(n)` writes exactly `max(n, 0)` copies, all of them the same frame |
| Schedule.Stream | main.py:113 | the stream of all names has `len(names) * max(frames_per_name, 0)` frames, which equals `total_frames` whenever the count is not negative |
| Schedule.StreamBlock | main.py:162-163 | the copies of name `i` fill exactly positions `i*n` to `i*n + n - 1` of the stream |
| Schedule.StreamAt | mian.py:57-58 | frame `k` of the stream is the frame of name `k / n`, so the stream is the in-order concatenation of `n` copies of each name's frame |
| Schedule.ProgressShape | main.py:164-166 | the values the worker sets after the writes rise strictly, stay in (0, 100], and are exactly 100 after the last of `total_frames` writes |
| Schedule.ProgressCountsWrites | main.py:165 | the value set after `k` writes, multiplied by `total_frames`, gives back `100 * k`; this follows directly from the definition of `Progress` |
| Layout.Centre | main.py:155-156 | the origin `(frame - extent) // 2` leaves a gap on the near side equal to the far gap or one pixel less |
| Layout.CentreUnique | main.py:155 | that bound fixes the origin: floor division is the only origin within it |
| Layout.CentreWithinHalfPixel | mian.py:50-51 | the middle of an extent placed at the origin lies at the middle of the frame or at most half a pixel before it |
| Layout.CentreOverflows | main.py:155 | a name wider than the frame gets a negative origin and overhangs both edges by the same amount, give or take a pixel |
| Layout.Origin | main.py:152-156 | both coordinates of the drawing origin centre the bounding box's width and height in the frame; the box's left and top offsets are not subtracted from the origin |
| Layout.DrawnBoxOffset | main.py:151-158 | text drawn at the origin covers `x + left` to `x + right`, so the drawn box is centred to within one pixel exactly when the font reports a zero left offset, and likewise vertically with the top offset |
| Lines.SplitLines | main.py:105 | `splitlines` yields lines without boundary characters, and no lines exactly for empty text |
| Lines.SplitLinesOfUnlines | main.py:104-105 | a name file written one name per line, blank names included, reads back as the same list |
| Lines.SplitLinesKeepsText | main.py:105 | the lines put back together are the file's text with only its line-boundary characters removed |
| Lines.SplitOn | mian.py:142 | `split(',')` gives at least one piece and no piece contains a comma |
| Lines.JoinOfSplit | mian.py:142 | joining the pieces with commas gives back the field's text |
| Lines.SplitOfJoin | mian.py:142 | splitting a comma-join of comma-free pieces gives back the pieces |
| Lines.SplitOnCount | mian.py:142 | a split has one piece more than the text has commas |
| Numerals.ParseIntOfShowInt | main.py:256 | the text `str(n)` of any integer reads back as `n` (no digit limit, see Left out) |
| Numerals.ParseIntIgnoresPadding | main.py:256 | spaces around a number do not change what `int` reads |
| Numerals.ParseRealOfInteger | main.py:259 | text `int` accepts, `float` reads as the same number, taken as an exact real (see Left out) |
| Numerals.ParseInt | main.py:256-258 | text `int` accepts is, once stripped, an optional sign followed by digits and underscores ending in a digit, and a negative value was written with `-` |
| Numerals.ParseReal | main.py:259 | text `float` accepts is, once stripped, an optional sign followed by digits, underscores and a point, and a negative value was written with `-` |
| Pipeline.Compose | main.py:151-160 | a drawn frame carries its own name, the resolved background, the text colour and the centred origin; an earlier exception passes through, an unparsable text colour raises, and an empty background or a picture with one or two channels then fails the conversion for the writer; captures are counted unchanged |
| Pipeline.WriteCopies | main.py:162-166 | the inner loop appends exactly `frames_per_name` copies and publishes one progress value per write |
| Pipeline.WriteNames | main.py:116-169 | the name loop as written produces the declarative trace: frames of the names before the first failure, the failure itself, and the writer released only when the loop completes |
| Pipeline.Generate | main.py:103-172 | the worker as written (read names, create writer, load font, loop) produces exactly the declarative trace |
| Pipeline.Expected | main.py:103-172 | the writer is never created only when the name file cannot be read, and is released exactly when the run succeeds; one progress value per frame; a run that fails before the loop writes nothing and opens no capture |
| Pipeline.Unfold | main.py:116-169 | the loop succeeds exactly when no iteration raises, writes `frames_per_name` copies for each iteration before the first that raises, and otherwise fails with that iteration's exception, leaving the writer open |
| Runs.RunWritesNamesInOrder | main.py:116-163 | frame `q` carries name `q / frames_per_name`; a successful run writes `len(names) * frames_per_name` frames; a run that fails before the loop writes nothing |
| Runs.UnfoldWritesNames | main.py:162-163 | for any name list and frame count, the loop writes at most `len(names) * n` frames, exactly that many on success, and frame `q` carries name `q / n` |
| Runs.UnfoldBackgrounds | main.py:116-163 | for any name list, frame `q` shows the background resolved for name `q / n` and the text colour |
| Runs.UnfoldCaptures | main.py:129-149 | when every iteration releases what it opens unless it raises, the loop leaves no capture open on success and at most one on failure |
| Runs.UnfoldOrder | main.py:162-163 | only names before the first failing one contribute, each with its full share of copies |
| Runs.RunProgress | main.py:162-166 | one value set on the progress variable per frame, rising strictly within (0, 100], 100 after a successful run that wrote anything, and none unless the total is positive |
| Runs.RunWriterFate | main.py:169-172 | the writer is released exactly when the run succeeds, and never created only when the name file cannot be read |
| Runs.RunCaptures | main.py:129-149 | if every capture opened is released unless the branch raises, a successful run leaves none open and a failed one at most one |
| Runs.RunSucceeds | main.py:116-170 | when every name's background resolves to an image the writer can convert (not empty, and not a one- or two-channel picture) and the text colour parses, the run succeeds |
| Runs.RunOutcome | main.py:116-172 | past the set-up, a run succeeds exactly when every name's iteration draws its frame, and a failed run carries the exception of an iteration that raised after all before it drew theirs |
| Runs.RunOutcomeBy | main.py:116-172 | when each iteration draws exactly under a condition on its position and otherwise raises one given exception, the run succeeds exactly when the condition holds for every name, and otherwise fails with that exception |
| Runs.RunBalanced | main.py:128-149 | when every name's branch releases the captures it opens, none is left open, whether the run succeeds or fails |
| Runs.RunFailsAtFirst | main.py:171-172 | an exception on the first name ends the run with that exception and no frame written |
| Runs.RunBackgrounds | main.py:116-163 | every written frame shows the background its own name's iteration resolved, in the job's text colour |
| Runs.RunCentres | main.py:151-158 | every written frame's origin centres the extents of its name's bounding box to within one pixel on both axes |
| Runs.SameBackgroundsSameRun | main.py:116-149 | a run depends on the background rule only through the backgrounds of the names in the file |
| MainRun.VideoBranchUnreachableFromForm | main.py:128 | neither the offered label nor the label the form checks reaches the video branch; only `视频（循环播放）` does |
| MainRun.ModeOf | main.py:117-128 | a label selects a background branch only when it is one of `纯色`, `图片`, `视频（循环播放）`; any other label falls through and is kept |
| MainRun.ModeOfInjective | main.py:117-128 | distinct labels never select the same branch |
| MainRun.StartFrame | main.py:134 | the random start frame lies in `[0, frame_count - 1]` |
| MainRun.AnyStartFrame | main.py:134 | every offset in that range is the start frame under some random draw |
| MainRun.VideoPick | main.py:131-141 | a frame is read only from a video with a positive frame count and always inside it: the start frame whenever that read succeeds, otherwise frame 0 exactly when that read succeeds |
| MainRun.VideoBackground | main.py:128-149 | the video branch opens one capture per name and releases it unless resizing the frame or making the black fallback raises |
| MainRun.Background | main.py:116-149 | per name, only the video branch opens a capture, at most one, released unless the branch raises; only an unknown label leaves `img` unbound; an image name gets a background whenever the picture loads or a black canvas can be made |
| MainRun.Generate | main.py:103-172 | the current worker's run as executed is the model's run |
| MainRun.MainCaptures | main.py:129-149 | a successful run leaves no capture open, a failed one at most the failing name's, and no mode but video opens any |
| MainRun.NoCaptures | main.py:117-127 | the solid and image branches open no video capture |
| MainRun.SolidRun | main.py:117-160 | when `Image.new` accepts the size and colour and the text colour parses, every written frame is that colour, and the run succeeds exactly when the frame has pixels or there are no names, failing otherwise with the conversion error; when `Image.new` refuses and there is a name, the first name fails before anything is written |
| MainRun.ImageRun | main.py:119-160 | an image that fails to open or resize blackens only that name's frames; with a black canvas and a text colour accepted, the run succeeds exactly when, for every name, the frame has pixels and the picture has 3 or 4 channels or did not open for that name; otherwise it fails with the conversion error |
| MainRun.VideoRun | main.py:128-160 | provided every read frame resizes, a black canvas of the output size can be made and the text colour parses: each name shows a resized frame of the video at an index inside it, or black exactly when there is no readable frame; every capture is released; the run succeeds exactly when the frame has pixels or there are no names, and otherwise fails with the conversion error |
| MainRun.UnknownModeRun | main.py:116-151 | an unknown label writes nothing and fails with the unbound background exactly when there is a name |
| OldRun.VideoBranchUnreachableFromForm | mian.py:36 | the mode list's video entry does not reach the `视频` branch; only that exact label, typed into the editable list, does |
| OldRun.ModeOf | mian.py:28-36 | a label selects a background branch only when it is one of `纯色`, `图片`, `视频`; any other label falls through and is kept |
| OldRun.ModeOfInjective | mian.py:28-36 | distinct labels never select the same branch |
| OldRun.VideoBackground | mian.py:36-44 | the earlier video branch opens one capture per name and uses the first frame unresized, or black, releasing the capture exactly when it does not raise |
| OldRun.Background | mian.py:27-44 | per name, only the video branch opens a capture, at most one, released unless the branch raises; only an unknown label leaves `img` unbound; an image name gets a background whenever the picture loads or a black canvas can be made |
| OldRun.Generate | mian.py:14-67 | the earlier worker's run as executed is the model's run |
| OldRun.VideoRun | mian.py:36-44 | provided the text colour parses, a video whose first frame reads for every name puts every name on that one unresized frame, succeeds and releases every capture |
| OldRun.ImageRun | mian.py:30-55 | an image that fails to open or resize (Pillow's default filter) blackens only that name; the run succeeds exactly when, for every name, the frame has pixels and the picture has 3 or 4 channels or did not open for that name; otherwise it fails with the conversion error |
| OldRun.OfferedVideoFails | mian.py:27-46 | the label the mode list offers for video matches no branch: the run fails on the first name, writes nothing and leaves the writer open |
| OldRun.SolidAgrees | mian.py:28-29 | on a solid colour the earlier worker produces the same run as the current one |
| OldRun.UnknownAgrees | mian.py:27-46 | on a label neither worker knows, both fail in the same way |
| Controls.Click | main.py:273-279 | one message box and the button enabled after every click; the worker starts exactly when the checks pass, after the bar is reset to 0 |
| Controls.ClickProgress | main.py:274 | over a click the values set on the progress variable start at 0, rise strictly, stay within [0, 100], and end at 100 after a successful run that wrote frames |
| MainForm.Validate | main.py:250-271 | each refusal happens exactly when the earlier checks pass and its own fails, in order: empty field, bad number, missing font or name file, missing background file; an accepted job carries the fields' values |
| MainForm.ValidateOfFields | main.py:237-279 | a job written into the form is accepted and read back unchanged |
| MainForm.AcceptedIsFieldsOf | main.py:255-260 | an accepted form is the form of its own job, up to how the numbers are written |
| MainForm.BackgroundValueOptional | main.py:250-251 | outside the file-backed modes, the background value may be empty |
| MainForm.PressShape | main.py:273-279 | a click on the current form gives one box and the button enabled, starts exactly when accepted, and sets the progress variable to 0, then to values within [0, 100], the last of them 100 after a successful run that wrote frames |
| MainForm.OfferedVideoFails | main.py:484-486 | the video entry the mode list offers passes the checks without a file and ends in the error box |
| OldForm.ParseResolution | mian.py:142 | the size is read exactly when the field splits on commas into two pieces that both read as integers, and takes their values |
| OldForm.ResolutionHasOneComma | mian.py:142 | an accepted resolution has exactly one comma |
| OldForm.ResolutionNeedsOneComma | mian.py:145-147 | a field with no comma or more than one is refused |
| OldForm.ParseResolutionOfShown | mian.py:142 | `"w,h"` written from two integers reads back as that size |
| OldForm.Validate | mian.py:135-155 | the earlier checks in order, with the resolution field among the numbers and `视频` as the file-backed video label |
| OldForm.ValidateOfFields | mian.py:123-155 | a job written into the earlier form is accepted and read back unchanged |
| OldForm.OfferedVideoFails | mian.py:222 | the earlier mode list's video entry passes the checks and ends in the error box |
| OldForm.PressShape | mian.py:157-163 | a click on the earlier form gives one box and the button enabled, starts exactly when accepted, and sets the progress variable to 0, then to values within [0, 100], the last of them 100 after a successful run that wrote frames |
| Scenarios.DefaultTiming | main.py:449 | the default 0.2 s at 30 frames per second gives 6 frames per name |
| Scenarios.ShortIntervalWritesNothing | main.py:112 | half a frame's time gives no frames, and a negative product truncates toward zero |
| Scenarios.BlankLineKept | main.py:105 | `"Ann\r\n\nBo\n"` reads as `Ann`, a blank name and `Bo` |
| Scenarios.TwoLines | main.py:105 | `"Ann\nBo\n"` reads as the two names |
| Scenarios.TwoNamesSolid | main.py:116-166 | two names at 0.2 s and 10 fps on a solid colour, in a frame with pixels, give Ann, Ann, Bo, Bo with progress 25, 50, 75, 100 |
| Scenarios.EmptyFrameFails | main.py:117-171 | a solid run in a frame 0 pixels wide fails on the first name with the conversion error, writes nothing and leaves the writer open |

## Left out

- Tkinter. Widgets, dialogs, themes and `root.update_idletasks` are not modelled. A click is reduced to its verdict, the values the worker sets on the progress variable, the message boxes and the button state.
- Progress animation. `progress_bar.start()` (`main.py:275`, `mian.py:159`) runs the bar's own animation, which steps the same progress variable on a timer while the worker runs. What the bar shows is therefore not monotone. The model's progress claims are about the values the worker sets.
- Windows theming. The ctypes and registry calls (`main.py:19-98`) are foreign calls with no bearing on the video.
- Threading. The worker is modelled as one sequential run that follows the click.
- Pixel work. Pixels, codecs, resampling and glyph rasterisation are not modelled. The libraries' answers are oracles in `Env`, so frames are records of name, background, origin and colour. Of the colour conversion, only whether `cvtColor` refuses the image is modelled, and it refuses for two reasons: the image is empty, or it has neither 3 nor 4 channels. A canvas or resize has the size asked for, a picture that opens keeps its file's channel count through the resize, and drawing is taken to raise only when the text colour does not parse.
- Video writer creation. Whether `cv2.VideoWriter` opened (`isOpened`) is never checked by the code, and the model assumes creation does not raise.
- Floating point. `interval * fps` and the progress values are exact reals. IEEE arithmetic can truncate one lower, for example `0.29 * 100`.
- Numerals.ParseInt: covers ASCII decimal text with a sign, surrounding ASCII whitespace (including `\x1c` to `\x1f`) and single underscores. Non-ASCII digits and whitespace (such as `\x85`, `\xa0` and the Unicode spaces), which Python's `int()` also accepts, are left out.
- Numerals.ParseInt: has no digit limit. Since Python 3.11 (and the matching security releases of 3.7 to 3.10), `int()` refuses text of more than 4300 digits unless the limit is changed, and the form then reports a number error (`main.py:255-263`, `mian.py:140-147`). The model reads such text as its value, because the limit depends on the interpreter's version and settings.
- Numerals.ParseIntOfShowInt: holds for every integer in the model. Under the 4300-digit limit above, Python reads back only integers of at most 4300 digits. The round trips built on it inherit this bound: MainForm.ValidateOfFields, OldForm.ValidateOfFields and OldForm.ParseResolutionOfShown hold in Python only for jobs whose numbers have at most 4300 digits.
- Numerals.ParseReal: covers the same ASCII text with a decimal point. It leaves out exponents, `inf` and `nan`, and non-ASCII digits and whitespace, all of which Python's `float()` also accepts.
- Numerals.ParseReal: reads decimal text as an exact real. Python's `float()` rounds it to the nearest double and reads text beyond the double range, about 1.8e308, as `inf`. When the interval is `inf`, or is finite but its product with fps overflows (1e308 at 30 fps, say), `int(interval * fps)` (`main.py:112`, `mian.py:23`) raises OverflowError; an `inf` interval with fps 0 gives `nan` and raises ValueError. That happens after the video writer was created, so the run fails with the writer left open. The model has no such failure: its run goes on with the exact value.
- Numerals.ParseRealOfInteger: holds for exact reals. Python's `float()` gives back the same number only for integers a double represents exactly, which include every integer up to 2^53 in magnitude. Other integer text is rounded, or read as `inf` beyond the double range.
- Random start frame. `random.randint` is modelled as a deterministic draw per name, `draw(i) % frame_count`. `MainRun.AnyStartFrame` shows that no offset is excluded.
- Seeking. Seeking and the retry at frame 0 are modelled by the `readsAt(path, index, i)` oracle. Whether a read succeeds may depend only on the path, the frame index and the name's position.
- Logging. The `print` of the image fallback's error is not modelled.
- Earlier video frame size. In `mian.py` the video frame is used at the video's own size. The model records this as `Still(path, 0, None)` and claims nothing about how the frame fits the output.
- The GitHub link (`webbrowser`) and the unused `matplotlib` import are not modelled.

=== FILE: controls.dfy ===
/** What a click on the generate button does, shared by both versions of the
    form: the form's verdict either refuses the input with one error box, or
    disables the button, sets the progress variable to 0 and runs the worker,
    which ends with one success or error box and re-enables the button. */
module Controls {

  import opened Pipeline
  import Runs

  /** Why the form refused to start a run, in the order the checks happen. */
  datatype Rejection =
    | FieldsEmpty          // a required field is empty
    | NotANumber           // `int` or `float` raised `ValueError`
    | FontOrNamesMissing   // the font file or the name file does not exist
    | BackgroundMissing    // the image or video mode's file does not exist

  datatype Verdict = Refused(why: Rejection) | Accepted(job: Job)

  /** The message box the user sees. */
  datatype Notice = InputError(why: Rejection) | Succeeded | RunFailed(fault: Fault)

  /** One click: whether the worker was started, every value set on the
      progress variable, the message boxes shown and whether the button is
      enabled afterwards. The bar's own animation, which steps the same
      variable, is not part of it. */
  datatype Session = Session(started: bool, progress: seq<real>, notices: seq<Notice>, buttonEnabled: bool)

  function NoticeOf(o: Outcome): (n: Notice)
    ensures n == Succeeded <==> o == Success
    ensures n.RunFailed? <==> o.Failure?
    ensures o.Failure? ==> n.fault == o.fault
  {
    match o
    case Success => Succeeded
    case Failure(fault) => RunFailed(fault)
  }

  /** A click given the form's verdict and the worker's run. */
  function Click(v: Verdict, run: Job -> Trace): (s: Session)
    ensures |s.notices| == 1 && s.buttonEnabled
    ensures s.started <==> v.Accepted?
    ensures v.Refused? ==> s.progress == [] && s.notices[0] == InputError(v.why)
    ensures v.Accepted? ==>
              && s.progress == [0.0] + run(v.job).progress
              && (s.notices[0] == Succeeded <==> run(v.job).outcome == Success)
  {
    match v
    case Refused(why) => Session(false, [], [InputError(why)], true)
    case Accepted(job) =>
      var t := run(job);
      Session(true, [0.0] + t.progress, [NoticeOf(t.outcome)], true)
  }

  /** The values set on the progress variable over a click: 0 first, then
      the worker's values, rising strictly with every frame written, never
      past 100, and ending at 100 when a run that wrote anything succeeds. */
  lemma ClickProgress(v: Verdict, run: Job -> Trace, env: Env, fetch: nat -> Effect<Background>)
    requires v.Accepted? && run(v.job) == Expected(v.job, env, fetch)
    ensures var s := Click(v, run);
            && s.progress[0] == 0.0
            && (forall i, j :: 0 <= i < j < |s.progress| ==> s.progress[i] < s.progress[j])
            && (forall i :: 0 <= i < |s.progress| ==> 0.0 <= s.progress[i] <= 100.0)
            && (s.notices == [Succeeded] && |s.progress| > 1 ==> s.progress[|s.progress| - 1] == 100.0)
  {
    var t := run(v.job);
    Runs.RunProgress(v.job, env, fetch);
    ZeroFirst(t.progress);
  }

  /** Prefixing 0 to values that rise strictly within (0, 100] keeps them
      rising strictly, within [0, 100]. */
  lemma ZeroFirst(p: seq<real>)
    requires forall i, j :: 0 <= i < j < |p| ==> p[i] < p[j]
    requires forall i :: 0 <= i < |p| ==> 0.0 < p[i] <= 100.0
    ensures forall i, j :: 0 <= i < j < |[0.0] + p| ==> ([0.0] + p)[i] < ([0.0] + p)[j]
    ensures forall i :: 0 <= i < |[0.0] + p| ==> 0.0 <= ([0.0] + p)[i] <= 100.0
  {
    var s := [0.0] + p;
    forall i, j | 0 <= i < j < |s|
      ensures s[i] < s[j]
    {
      assert s[j] == p[j - 1];
      if i > 0 {
        assert s[i] == p[i - 1];
      }
    }
  }
}

=== FILE: layout.dfy ===
/** Placing a name in the frame: the text's bounding box extents (its width
    and height) are centred on each axis with Python's floor division
    `(frame - extent) // 2`. The box itself comes from the font engine and
    is taken as given. The box's own offset from the drawing origin (its
    left and top) is not subtracted, so the ink lands off centre by that
    offset. */
module Layout {

  /** A text bounding box `(left, top, right, bottom)` as `textbbox` reports
      it for text drawn at the origin. */
  datatype Box = Box(left: int, top: int, right: int, bottom: int) {
    function Width(): int { right - left }
    function Height(): int { bottom - top }
  }

  /** The origin on one axis: `(frame - extent) // 2`. Python's `//` floors;
      for the divisor 2 Dafny's Euclidean `/` is the same floor, also when the
      text is wider than the frame and the difference is negative. */
  function Centre(frame: int, extent: int): (p: int)
    ensures 0 <= (frame - extent) - 2 * p <= 1
  {
    (frame - extent) / 2
  }

  /** The floor is the only origin within that bound, so the centring rule
      fixes the origin completely. */
  lemma CentreUnique(frame: int, extent: int, q: int)
    requires 0 <= (frame - extent) - 2 * q <= 1
    ensures q == Centre(frame, extent)
  {
  }

  /** The middle of the text sits at the middle of the frame or half a pixel
      before it, never further away. */
  lemma CentreWithinHalfPixel(frame: int, extent: int)
    ensures var p := Centre(frame, extent);
            0.0 <= frame as real / 2.0 - (p as real + extent as real / 2.0) <= 0.5
  {
  }

  /** A name wider than the frame starts left of (or above) the frame edge
      and ends past the far edge by the same amount, give or take a pixel. */
  lemma CentreOverflows(frame: int, extent: int)
    requires extent > frame
    ensures var p := Centre(frame, extent);
            p < 0 && frame <= p + extent && -p <= (p + extent - frame) + 1
  {
  }

  /** Where the name is drawn in a frame of `width` by `height`. */
  function Origin(width: int, height: int, box: Box): (xy: (int, int))
    ensures 0 <= (width - box.Width()) - 2 * xy.0 <= 1
    ensures 0 <= (height - box.Height()) - 2 * xy.1 <= 1
  {
    (Centre(width, box.Width()), Centre(height, box.Height()))
  }

  /** Where the ink lands: text drawn at `p` covers `p + left` to
      `p + right`. The gap after it minus the gap before it is the centring
      remainder (0 or 1) less twice the box's left offset, so the drawn box
      is centred (to within one pixel) exactly when that offset is zero. The
      same holds vertically with the top offset. */
  lemma DrawnBoxOffset(width: int, height: int, box: Box)
    ensures var xy := Origin(width, height, box);
            var before, after := xy.0 + box.left, width - (xy.0 + box.right);
            && after - before == (width - box.Width()) - 2 * xy.0 - 2 * box.left
            && (0 <= after - before <= 1 <==> box.left == 0)
    ensures var xy := Origin(width, height, box);
            var above, below := xy.1 + box.top, height - (xy.1 + box.bottom);
            && below - above == (height - box.Height()) - 2 * xy.1 - 2 * box.top
            && (0 <= below - above <= 1 <==> box.top == 0)
  {
  }
}

=== FILE: lines.dfy ===
/** Splitting text the way the generator reads its inputs: the name file is
    cut into lines with Python's `str.splitlines`, and the older version cuts
    the resolution field `"w,h"` with `str.split(',')`. */
module Lines {

  /** The characters `str.splitlines` treats as line boundaries. A `\r`
      directly followed by `\n` counts as one boundary. */
  predicate IsBreak(c: char) {
    || c == '\n' || c == '\r'
    || c == '\U{000B}' || c == '\U{000C}'
    || c == '\U{001C}' || c == '\U{001D}' || c == '\U{001E}'
    || c == '\U{0085}' || c == '\U{2028}' || c == '\U{2029}'
  }

  predicate NoBreak(s: string) {
    forall i :: 0 <= i < |s| ==> !IsBreak(s[i])
  }

  /** Index of the first line boundary in `s`, or `|s|` when there is none. */
  function FirstBreak(s: string): (k: nat)
    ensures k <= |s|
    ensures NoBreak(s[..k])
    ensures k < |s| ==> IsBreak(s[k])
  {
    if s == [] then 0
    else if IsBreak(s[0]) then 0
    else
      var k := 1 + FirstBreak(s[1..]);
      assert s[..k] == [s[0]] + s[1..][..k - 1];
      k
  }

  /** Length of the boundary that starts at `k`: two for `\r\n`, else one. */
  function BreakWidth(s: string, k: nat): nat
    requires k < |s|
  {
    if s[k] == '\r' && k + 1 < |s| && s[k + 1] == '\n' then 2 else 1
  }

  /** `str.splitlines()`: the lines of `s` without their terminators; a final
      terminator does not start an extra empty line, but a blank line in the
      middle is kept as an empty string. */
  function SplitLines(s: string): (lines: seq<string>)
    ensures forall i :: 0 <= i < |lines| ==> NoBreak(lines[i])
    ensures s == [] <==> lines == []
    decreases |s|
  {
    if s == [] then []
    else
      var k := FirstBreak(s);
      if k == |s| then [s]
      else [s[..k]] + SplitLines(s[k + BreakWidth(s, k)..])
  }

  /** Each line followed by `\n`: the file a list of names is written as. */
  function Unlines(lines: seq<string>): string {
    if lines == [] then [] else lines[0] + "\n" + Unlines(lines[1..])
  }

  /** All characters of a sequence of strings, in order. */
  function Concat(parts: seq<string>): string {
    if parts == [] then [] else parts[0] + Concat(parts[1..])
  }

  /** `s` with every line-boundary character dropped. */
  function DropBreaks(s: string): (t: string)
    ensures NoBreak(t)
    ensures |t| <= |s|
  {
    if s == [] then []
    else if IsBreak(s[0]) then DropBreaks(s[1..])
    else [s[0]] + DropBreaks(s[1..])
  }

  lemma FirstBreakAt(a: string, b: string)
    requires NoBreak(a)
    requires b != [] && IsBreak(b[0])
    ensures FirstBreak(a + b) == |a|
  {
    if a != [] {
      assert (a + b)[1..] == a[1..] + b;
      FirstBreakAt(a[1..], b);
    }
  }

  /** Cutting off the first line: a break-free head followed by a boundary
      becomes the first line, and splitting continues after the boundary. */
  lemma SplitLinesAfter(a: string, b: string)
    requires NoBreak(a)
    requires b != [] && IsBreak(b[0])
    ensures SplitLines(a + b) == [a] + SplitLines(b[BreakWidth(b, 0)..])
  {
    FirstBreakAt(a, b);
    var s, w := a + b, BreakWidth(b, 0);
    assert BreakWidth(s, |a|) == w;
    assert SplitLines(s) == [s[..|a|]] + SplitLines(s[|a| + w..]);
    assert s[..|a|] == a;
    assert s[|a| + w..] == b[w..];
  }

  lemma DropBreaksOfPlain(s: string)
    requires NoBreak(s)
    ensures DropBreaks(s) == s
  {
    if s != [] {
      DropBreaksOfPlain(s[1..]);
    }
  }

  lemma DropBreaksAppend(a: string, b: string)
    ensures DropBreaks(a + b) == DropBreaks(a) + DropBreaks(b)
  {
    if a != [] {
      assert (a + b)[0] == a[0];
      assert (a + b)[1..] == a[1..] + b;
      DropBreaksAppend(a[1..], b);
      if IsBreak(a[0]) {
        assert DropBreaks(a + b) == DropBreaks(a[1..] + b);
      } else {
        assert DropBreaks(a + b) == [a[0]] + DropBreaks(a[1..] + b);
        assert DropBreaks(a) == [a[0]] + DropBreaks(a[1..]);
      }
    } else {
      assert a + b == b;
    }
  }

  lemma DropBreaksOfBreaks(s: string)
    requires forall i :: 0 <= i < |s| ==> IsBreak(s[i])
    ensures DropBreaks(s) == []
  {
    if s != [] {
      DropBreaksOfBreaks(s[1..]);
    }
  }

  /** Reading back a name list written one name per line gives the same list,
      blank names included. */
  lemma {:induction false} SplitLinesOfUnlines(lines: seq<string>)
    requires forall i :: 0 <= i < |lines| ==> NoBreak(lines[i])
    ensures SplitLines(Unlines(lines)) == lines
  {
    if lines != [] {
      var s := Unlines(lines);
      var rest := Unlines(lines[1..]);
      assert s == lines[0] + ("\n" + rest);
      FirstBreakAt(lines[0], "\n" + rest);
      var k := |lines[0]|;
      assert s[..k] == lines[0];
      assert BreakWidth(s, k) == 1;
      assert s[k + 1..] == rest;
      SplitLinesOfUnlines(lines[1..]);
    }
  }

  /** Splitting into lines loses nothing but the line boundaries: the lines,
      put back together, are the text with its boundary characters removed. */
  lemma {:induction false} SplitLinesKeepsText(s: string)
    ensures Concat(SplitLines(s)) == DropBreaks(s)
    decreases |s|
  {
    if s != [] {
      var k := FirstBreak(s);
      DropBreaksOfPlain(s[..k]);
      if k == |s| {
        assert s[..k] == s;
      } else {
        var w := BreakWidth(s, k);
        var head, brk, tail := s[..k], s[k..k + w], s[k + w..];
        assert forall i :: 0 <= i < |brk| ==> IsBreak(brk[i]);
        ThreeSlices(s, k, k + w);
        DropAroundBreak(head, brk, tail);
        SplitLinesKeepsText(tail);
        assert SplitLines(s) == [head] + SplitLines(tail);
      }
    }
  }

  /** A line, a break and the rest lose only the break. */
  lemma DropAroundBreak(head: string, brk: string, tail: string)
    requires NoBreak(head)
    requires forall i :: 0 <= i < |brk| ==> IsBreak(brk[i])
    ensures DropBreaks(head + brk + tail) == head + DropBreaks(tail)
  {
    calc {
      DropBreaks(head + brk + tail);
      { DropBreaksAppend(head + brk, tail); }
      DropBreaks(head + brk) + DropBreaks(tail);
      { DropBreaksAppend(head, brk); DropBreaksOfBreaks(brk); }
      DropBreaks(head) + DropBreaks(tail);
      { DropBreaksOfPlain(head); }
      head + DropBreaks(tail);
    }
  }

  lemma ThreeSlices(s: string, i: nat, j: nat)
    requires i <= j <= |s|
    ensures s == s[..i] + s[i..j] + s[j..]
  {
  }

  /** Index of the first `c` in `s`, or `|s|` when there is none. */
  function IndexOf(s: string, c: char): (k: nat)
    ensures k <= |s|
    ensures c !in s[..k]
    ensures k < |s| ==> s[k] == c
  {
    if s == [] then 0
    else if s[0] == c then 0
    else
      var k := 1 + IndexOf(s[1..], c);
      assert s[..k] == [s[0]] + s[1..][..k - 1];
      k
  }

  /** `s.split(c)` for a one-character separator: always at least one piece,
      and no piece contains the separator. */
  function SplitOn(s: string, c: char): (parts: seq<string>)
    ensures |parts| >= 1
    ensures forall i :: 0 <= i < |parts| ==> c !in parts[i]
    decreases |s|
  {
    var k := IndexOf(s, c);
    if k == |s| then [s]
    else [s[..k]] + SplitOn(s[k + 1..], c)
  }

  /** `c.join(parts)`. */
  function JoinOn(parts: seq<string>, c: char): string
    requires |parts| >= 1
  {
    if |parts| == 1 then parts[0] else parts[0] + [c] + JoinOn(parts[1..], c)
  }

  /** Number of occurrences of `c` in `s`. */
  function Occurrences(s: string, c: char): nat {
    if s == [] then 0 else (if s[0] == c then 1 else 0) + Occurrences(s[1..], c)
  }

  lemma OccurrencesAppend(a: string, b: string, c: char)
    ensures Occurrences(a + b, c) == Occurrences(a, c) + Occurrences(b, c)
  {
    if a != [] {
      assert (a + b)[0] == a[0];
      assert (a + b)[1..] == a[1..] + b;
      OccurrencesAppend(a[1..], b, c);
      assert Occurrences(a + b, c) == (if a[0] == c then 1 else 0) + Occurrences(a[1..] + b, c);
    } else {
      assert a + b == b;
    }
  }

  lemma OccurrencesAbsent(s: string, c: char)
    requires c !in s
    ensures Occurrences(s, c) == 0
  {
    if s != [] {
      OccurrencesAbsent(s[1..], c);
    }
  }

  /** Joining the pieces of a split gives back the original text. */
  lemma {:induction false} JoinOfSplit(s: string, c: char)
    ensures JoinOn(SplitOn(s, c), c) == s
    decreases |s|
  {
    var k := IndexOf(s, c);
    if k < |s| {
      var rest := s[k + 1..];
      var parts, tail := SplitOn(s, c), SplitOn(rest, c);
      assert parts == [s[..k]] + tail;
      assert parts[0] == s[..k] && parts[1..] == tail;
      JoinOfSplit(rest, c);
      assert JoinOn(parts, c) == s[..k] + [c] + rest;
      assert s == s[..k] + [c] + rest;
    } else {
      assert SplitOn(s, c) == [s];
    }
  }

  /** Splitting a join of separator-free pieces gives back the pieces. */
  lemma {:induction false} SplitOfJoin(parts: seq<string>, c: char)
    requires |parts| >= 1
    requires forall i :: 0 <= i < |parts| ==> c !in parts[i]
    ensures SplitOn(JoinOn(parts, c), c) == parts
  {
    var s := JoinOn(parts, c);
    if |parts| == 1 {
      IndexOfAbsent(parts[0], c);
    } else {
      var rest := JoinOn(parts[1..], c);
      assert s == parts[0] + ([c] + rest);
      IndexOfAt(parts[0], [c] + rest, c);
      assert s[..|parts[0]|] == parts[0];
      assert s[|parts[0]| + 1..] == rest;
      SplitOfJoin(parts[1..], c);
    }
  }

  /** A split yields one piece more than there are separators. */
  lemma {:induction false} SplitOnCount(s: string, c: char)
    ensures |SplitOn(s, c)| == Occurrences(s, c) + 1
    decreases |s|
  {
    var k := IndexOf(s, c);
    if k == |s| {
      assert s[..k] == s;
      OccurrencesAbsent(s, c);
    } else {
      assert s == s[..k] + ([c] + s[k + 1..]);
      OccurrencesAppend(s[..k], [c] + s[k + 1..], c);
      OccurrencesAbsent(s[..k], c);
      assert ([c] + s[k + 1..])[1..] == s[k + 1..];
      SplitOnCount(s[k + 1..], c);
    }
  }

  lemma IndexOfAbsent(s: string, c: char)
    requires c !in s
    ensures IndexOf(s, c) == |s|
  {
    if s != [] {
      IndexOfAbsent(s[1..], c);
    }
  }

  lemma IndexOfAt(a: string, b: string, c: char)
    requires c !in a
    requires b != [] && b[0] == c
    ensures IndexOf(a + b, c) == |a|
  {
    if a != [] {
      assert (a + b)[1..] == a[1..] + b;
      IndexOfAt(a[1..], b, c);
    }
  }
}

=== FILE: main_form.dfy ===
/** The input checks of the current form (`main.py`, `generate_video`): every
    field but the background value must be filled in, the five numeric fields
    must read as numbers, the font and name files must exist, and in the
    image mode (and under the video label the form checks) the background
    file must exist too. Only then is the worker started. */
module MainForm {

  import opened Optional
  import opened Numerals
  import opened Pipeline
  import opened Runs
  import opened Controls
  import MainRun

  /** The text of the form's fields as `Entry.get` returns it. */
  datatype Fields = Fields(
    font: string, names: string, output: string,
    fps: string, width: string, height: string, interval: string, textSize: string,
    ink: string, mode: string, bgValue: string)

  /** Every required field is non-empty; the background value is not one of
      them. */
  predicate Filled(f: Fields) {
    && f.font != [] && f.names != [] && f.output != []
    && f.fps != [] && f.width != [] && f.height != [] && f.interval != [] && f.textSize != []
    && f.ink != []
  }

  /** Every numeric field reads as a number. */
  predicate Numeric(f: Fields) {
    && ParseInt(f.fps).Some? && ParseInt(f.width).Some? && ParseInt(f.height).Some?
    && ParseReal(f.interval).Some? && ParseInt(f.textSize).Some?
  }

  /** The modes for which a background file must exist. */
  predicate NeedsFile(mode: string) {
    mode == MainRun.ImageLabel || mode == MainRun.CheckedVideoLabel
  }

  /** `generate_video`'s checks in order, with `present` standing for
      `os.path.exists`; the job is what the worker thread is started with. */
  function Validate(f: Fields, present: string -> bool): (v: Verdict)
    ensures v == Refused(FieldsEmpty) <==> !Filled(f)
    ensures v == Refused(NotANumber) <==> Filled(f) && !Numeric(f)
    ensures v == Refused(FontOrNamesMissing) <==> Filled(f) && Numeric(f) && !(present(f.font) && present(f.names))
    ensures v == Refused(BackgroundMissing) <==>
              Filled(f) && Numeric(f) && present(f.font) && present(f.names) && NeedsFile(f.mode) && !present(f.bgValue)
    ensures v.Accepted? ==>
              && v.job.fontPath == f.font && v.job.namePath == f.names && v.job.outputPath == f.output
              && Some(v.job.fps) == ParseInt(f.fps)
              && Some(v.job.size) == (var w, h := ParseInt(f.width), ParseInt(f.height); Some(Size(w.value, h.value)))
              && Some(v.job.interval) == ParseReal(f.interval)
              && Some(v.job.textSize) == ParseInt(f.textSize)
              && v.job.ink == f.ink && v.job.mode == f.mode && v.job.bgValue == f.bgValue
  {
    if !Filled(f) then Refused(FieldsEmpty)
    else
      var fps, width, height, interval, textSize :=
        ParseInt(f.fps), ParseInt(f.width), ParseInt(f.height), ParseReal(f.interval), ParseInt(f.textSize);
      if fps.None? || width.None? || height.None? || interval.None? || textSize.None? then Refused(NotANumber)
      else if !present(f.font) || !present(f.names) then Refused(FontOrNamesMissing)
      else if NeedsFile(f.mode) && !present(f.bgValue) then Refused(BackgroundMissing)
      else
        Accepted(Job(f.names, f.font, f.output, fps.value, Size(width.value, height.value),
                     interval.value, textSize.value, f.ink, f.mode, f.bgValue))
  }

  /** The form filled in with a job's values, numbers written as `str` writes
      them and the interval as the given text. */
  function FieldsOf(job: Job, interval: string): Fields {
    Fields(job.fontPath, job.namePath, job.outputPath,
           ShowInt(job.fps), ShowInt(job.size.width), ShowInt(job.size.height), interval, ShowInt(job.textSize),
           job.ink, job.mode, job.bgValue)
  }

  lemma ShowIntFilled(n: int)
    ensures ShowInt(n) != []
  {
  }

  /** Filling the form in from a job gives that job back, as long as the paths
      and the text colour are not empty and the files the checks look for
      exist. */
  lemma ValidateOfFields(job: Job, interval: string, present: string -> bool)
    requires job.fontPath != [] && job.namePath != [] && job.outputPath != [] && job.ink != []
    requires ParseReal(interval) == Some(job.interval)
    requires present(job.fontPath) && present(job.namePath)
    requires NeedsFile(job.mode) ==> present(job.bgValue)
    ensures Validate(FieldsOf(job, interval), present) == Accepted(job)
  {
    var f := FieldsOf(job, interval);
    ShowIntFilled(job.fps);
    ShowIntFilled(job.size.width);
    ShowIntFilled(job.size.height);
    ShowIntFilled(job.textSize);
    ParseIntOfShowInt(job.fps);
    ParseIntOfShowInt(job.size.width);
    ParseIntOfShowInt(job.size.height);
    ParseIntOfShowInt(job.textSize);
    assert Filled(f) && Numeric(f);
  }

  /** An accepted form is the form of its own job, up to how the numbers were
      written: validation reads every field and invents nothing. */
  lemma AcceptedIsFieldsOf(f: Fields, present: string -> bool)
    requires Validate(f, present).Accepted?
    ensures var job := Validate(f, present).job;
            Validate(FieldsOf(job, f.interval), present) == Validate(f, present)
  {
    var job := Validate(f, present).job;
    ValidateOfFields(job, f.interval, present);
  }

  /** In solid mode (and for a video label), the background value may be left
      empty and names no file that has to exist. */
  lemma BackgroundValueOptional(f: Fields, present: string -> bool)
    requires Filled(f) && Numeric(f) && present(f.font) && present(f.names)
    requires !NeedsFile(f.mode)
    ensures Validate(f, present).Accepted?
    ensures Validate(f.(bgValue := []), present).Accepted?
  {
  }

  /** A click on the current form. */
  function Press(f: Fields, present: string -> bool, env: Env): Session {
    Click(Validate(f, present), (job: Job) => MainRun.Run(job, env))
  }

  /** A click ends with exactly one message box and the button enabled; the
      worker is started exactly when every check passes; the values set on
      the progress variable are 0 and then the worker's rising values, the
      last of them 100 after a successful run that wrote frames. */
  lemma PressShape(f: Fields, present: string -> bool, env: Env)
    ensures var s := Press(f, present, env);
            && |s.notices| == 1 && s.buttonEnabled
            && (s.started <==> Validate(f, present).Accepted?)
            && (s.started ==> s.progress[0] == 0.0
                              && (forall i :: 0 <= i < |s.progress| ==> 0.0 <= s.progress[i] <= 100.0)
                              && (s.notices == [Succeeded] && |s.progress| > 1 ==> s.progress[|s.progress| - 1] == 100.0))
  {
    var v := Validate(f, present);
    if v.Accepted? {
      ClickProgress(v, (job: Job) => MainRun.Run(job, env), env, MainRun.Fetcher(v.job, env));
    }
  }

  /** Choosing the video entry the mode list offers passes the checks without
      any background file, and with a name to show the run then ends in the
      error box. */
  lemma OfferedVideoFails(f: Fields, present: string -> bool, env: Env)
    requires f.mode == MainRun.OfferedVideoLabel
    requires Filled(f) && Numeric(f) && present(f.font) && present(f.names)
    requires var job := Validate(f, present).job; SetUp(job, env) && NamesOf(job, env) != []
    ensures Validate(f, present).Accepted?
    ensures Press(f, present, env).notices == [RunFailed(BackgroundUnbound)]
  {
    var job := Validate(f, present).job;
    MainRun.UnknownModeRun(job, env);
  }
}

=== FILE: main_run.dfy ===
/** The background rule of the current worker (`main.py`): a solid colour,
    a still image re-opened and LANCZOS-resized for every name with a black
    fallback, or one frame of the background video at a random offset for
    every name, resized to the frame size, with a retry at frame 0 and a
    black fallback. */
module MainRun {

  import opened Optional
  import opened Schedule
  import opened Pipeline
  import opened Runs

  const SolidLabel: string := "纯色"
  const ImageLabel: string := "图片"
  /** The label the worker's video branch tests for. */
  const VideoLabel: string := "视频（循环播放）"
  /** The video entry the read-only mode list offers. */
  const OfferedVideoLabel: string := "视频（暂不支持）"
  /** The video label the form checks a background file for. */
  const CheckedVideoLabel: string := "视频（存在bug，有能力的解决）"

  /** The branch a mode label selects. A label that is none of the three
      branch labels falls through every test and is kept as `Other`. */
  function ModeOf(choice: string): (m: Mode)
    ensures m.Other? <==> choice != SolidLabel && choice != ImageLabel && choice != VideoLabel
    ensures m.Other? ==> m.choice == choice
  {
    if choice == SolidLabel then Solid
    else if choice == ImageLabel then Image
    else if choice == VideoLabel then Video
    else Other(choice)
  }

  /** Distinct labels select distinct branches: the dispatch confuses no
      two labels. */
  lemma ModeOfInjective(a: string, b: string)
    requires ModeOf(a) == ModeOf(b)
    ensures a == b
  {
  }

  /** Only the worker's own label reaches the video branch: neither the
      entry the mode list offers nor the label the form checks does. */
  lemma VideoBranchUnreachableFromForm()
    ensures ModeOf(OfferedVideoLabel) == Other(OfferedVideoLabel)
    ensures ModeOf(CheckedVideoLabel) == Other(CheckedVideoLabel)
    ensures ModeOf(VideoLabel) == Video
  {
  }

  /** `random.randint(0, frame_count - 1)` for name `i`, with the random
      source abstracted as the raw draw `env.draw(i)`. */
  function StartFrame(env: Env, count: int, i: nat): (s: int)
    requires count > 0
    ensures 0 <= s < count
  {
    env.draw(i) % count
  }

  /** Every offset in range is the start frame under some random source, so
      the model excludes none of the values `randint` may return. */
  lemma AnyStartFrame(env: Env, count: int, i: nat, s: int)
    requires 0 <= s < count
    ensures StartFrame(env.(draw := (_: nat) => s), count, i) == s
  {
    var e := env.(draw := (_: nat) => s);
    assert e.draw(i) == s;
    ModSmall(s, count);
  }

  lemma ModSmall(s: int, count: int)
    requires 0 <= s < count
    ensures s % count == s
  {
  }

  /** The frame read for name `i`: the start frame if that read succeeds,
      else frame 0 if that read succeeds, else none. A video whose frame
      count is not positive is never read. */
  function VideoPick(job: Job, env: Env, i: nat): (p: Option<int>)
    ensures var count := env.frameCount(job.bgValue, i);
            && (p.Some? ==> 0 <= p.value < count)
            && (p.Some? <==> count > 0 && (env.readsAt(job.bgValue, StartFrame(env, count, i), i)
                                          || env.readsAt(job.bgValue, 0, i)))
            && (p.Some? && p.value != 0 ==> p.value == StartFrame(env, count, i))
    ensures var count := env.frameCount(job.bgValue, i);
            count > 0 ==>
              var start := StartFrame(env, count, i);
              && (env.readsAt(job.bgValue, start, i) ==> p == Some(start))
              && (!env.readsAt(job.bgValue, start, i) ==>
                    (p == Some(0) <==> env.readsAt(job.bgValue, 0, i)))
  {
    var path := job.bgValue;
    var count := env.frameCount(path, i);
    if count <= 0 then None
    else
      var start := StartFrame(env, count, i);
      if env.readsAt(path, start, i) then Some(start)
      else if env.readsAt(path, 0, i) then Some(0)
      else None
  }

  /** The video branch for name `i`. It opens one capture and releases it
      unless an exception cuts the branch short. */
  function VideoBackground(job: Job, env: Env, i: nat): (e: Effect<Background>)
    ensures e.opens == 1
    ensures e.result.Done? ==> e.releases == 1
    ensures e.result.Raised? ==> e.releases == 0
  {
    match VideoPick(job, env, i)
    case Some(index) =>
      if env.frameResizes(job.size) then Effect(Done(Still(job.bgValue, index, Some(job.size))), 1, 1)
      else Effect(Raised(FrameResizeFailed), 1, 0)
    case None =>
      var black := BlackCanvas(env, job.size);
      Effect(black, 1, if black.Done? then 1 else 0)
  }

  /** The background of name `i` under the job's mode. Only the video branch
      opens a capture, and it releases it unless the branch raises; only an
      unknown label leaves `img` unbound; in image mode the name gets a
      background whenever the picture loads or a black canvas can be made. */
  function Background(job: Job, env: Env, i: nat): (e: Effect<Background>)
    ensures e.releases <= e.opens <= 1
    ensures e.result.Done? ==> e.releases == e.opens
    ensures e.opens == 1 <==> ModeOf(job.mode) == Video
    ensures e.result == Raised(BackgroundUnbound) <==> ModeOf(job.mode).Other?
    ensures ModeOf(job.mode) == Image ==>
              (e.result.Done? <==> env.pictureOk(job.bgValue, job.size, Lanczos, i) || env.canvasOk(job.size))
  {
    match ModeOf(job.mode)
    case Solid => Effect(SolidCanvas(job, env), 0, 0)
    case Image =>
      var filter := Lanczos;
      if env.pictureOk(job.bgValue, job.size, filter, i) then Effect(Done(Picture(job.bgValue, job.size, filter)), 0, 0)
      else Effect(BlackCanvas(env, job.size), 0, 0)
    case Video => VideoBackground(job, env, i)
    case Other(_) => Effect(Raised(BackgroundUnbound), 0, 0)
  }

  function Fetcher(job: Job, env: Env): nat -> Effect<Background> {
    (i: nat) => Background(job, env, i)
  }

  /** One run of the current worker. */
  function Run(job: Job, env: Env): Trace {
    Expected(job, env, Fetcher(job, env))
  }

  /** The run as the worker executes it, loop by loop. */
  method Generate(job: Job, env: Env) returns (t: Trace)
    ensures t == Run(job, env)
  {
    t := Pipeline.Generate(job, env, Fetcher(job, env));
  }

  /** The current worker releases every capture it opens, except the one of
      a name whose branch raises: a successful run leaves none open. */
  lemma MainCaptures(job: Job, env: Env)
    ensures var t := Run(job, env);
            && t.capturesReleased <= t.capturesOpened <= t.capturesReleased + 1
            && (t.outcome.Success? ==> t.capturesOpened == t.capturesReleased)
            && (ModeOf(job.mode) != Video ==> t.capturesOpened == 0)
  {
    var fetch := Fetcher(job, env);
    assert CapturesTidy(fetch) by {
      forall i: nat
        ensures fetch(i).releases <= fetch(i).opens <= 1
        ensures fetch(i).result.Done? ==> fetch(i).releases == fetch(i).opens
      {
        assert fetch(i) == Background(job, env, i);
      }
    }
    RunCaptures(job, env, fetch);
    if ModeOf(job.mode) != Video {
      NoCaptures(job, env);
    }
  }

  lemma {:induction false} OpenedNone(steps: seq<Effect<Frame>>)
    requires forall q :: 0 <= q < |steps| ==> steps[q].opens == 0
    ensures Opened(steps) == 0
  {
    if steps != [] {
      OpenedNone(steps[..|steps| - 1]);
    }
  }

  lemma NoCaptures(job: Job, env: Env)
    requires ModeOf(job.mode) != Video
    ensures Run(job, env).capturesOpened == 0
  {
    if SetUp(job, env) {
      var fetch := Fetcher(job, env);
      var names := NamesOf(job, env);
      var steps := Steps(job, env, fetch, names);
      var k := FirstRaised(steps);
      var reached := if k < |steps| then k + 1 else k;
      forall q | 0 <= q < reached
        ensures steps[..reached][q].opens == 0
      {
        assert steps[q] == Compose(job, env, names[q], fetch(q));
      }
      OpenedNone(steps[..reached]);
    }
  }

  /** Solid mode: with a colour `Image.new` accepts and a text colour that
      parses, every name written is on that colour, and the run succeeds
      exactly when the frame has pixels (or there are no names); an empty
      frame fails the conversion for the writer. With a colour `Image.new`
      refuses, the first name ends the run before anything is written. */
  lemma SolidRun(job: Job, env: Env)
    requires ModeOf(job.mode) == Solid
    requires SetUp(job, env)
    ensures env.canvasOk(job.size) && env.color(job.bgValue).Some? && env.color(job.ink).Some? ==>
              var t := Run(job, env);
              && (t.outcome == Success <==> NamesOf(job, env) == [] || Drawable(job.size))
              && (t.outcome.Failure? ==> t.outcome.fault == ConversionFailed)
              && forall q :: 0 <= q < |t.written| ==> t.written[q].background == Fill(env.color(job.bgValue).value)
    ensures !(env.canvasOk(job.size) && env.color(job.bgValue).Some?) && NamesOf(job, env) != [] ==>
              Run(job, env).outcome == Failure(CanvasRejected) && Run(job, env).written == []
  {
    var fetch, t, n := Fetcher(job, env), Run(job, env), PerName(job);
    var names := NamesOf(job, env);
    var solid := Effect(SolidCanvas(job, env), 0, 0);
    if env.canvasOk(job.size) && env.color(job.bgValue).Some? && env.color(job.ink).Some? {
      forall i | 0 <= i < |names|
        ensures var c := Compose(job, env, names[i], fetch(i)).result;
                (c.Done? <==> Drawable(job.size)) && (c.Raised? ==> c.fault == ConversionFailed)
      {
        assert fetch(i) == solid;
      }
      RunOutcomeBy(job, env, fetch, _ => Drawable(job.size), ConversionFailed);
      if names != [] && t.outcome == Success {
        assert (_ => Drawable(job.size))(0);
      }
      RunWritesNamesInOrder(job, env, fetch);
      if n > 0 {
        RunBackgrounds(job, env, fetch);
        forall q | 0 <= q < |t.written|
          ensures t.written[q].background == Fill(env.color(job.bgValue).value)
        {
          assert fetch(ItemAt(q, n)) == solid;
        }
      }
    }
    if !(env.canvasOk(job.size) && env.color(job.bgValue).Some?) && NamesOf(job, env) != [] {
      assert fetch(0) == solid;
      RunFailsAtFirst(job, env, fetch);
    }
  }

  /** Image mode: a failure to open or resize the image only turns that
      name's background black, decided for that name alone. With a black
      canvas the size allows and a text colour that parses, the run fails
      only when the conversion for the writer refuses a name's image: when
      the frame has no pixels, or when a picture that did open has one or
      two channels. */
  lemma ImageRun(job: Job, env: Env)
    requires ModeOf(job.mode) == Image
    requires SetUp(job, env)
    requires env.canvasOk(job.size) && env.color(job.ink).Some?
    ensures var t, names := Run(job, env), NamesOf(job, env);
            && (t.outcome == Success <==>
                  forall i :: 0 <= i < |names| ==>
                    Drawable(job.size) && (env.colourFile(job.bgValue) || !env.pictureOk(job.bgValue, job.size, Lanczos, i)))
            && (t.outcome.Failure? ==> t.outcome.fault == ConversionFailed)
    ensures var t, n := Run(job, env), PerName(job);
            n > 0 ==> forall q :: 0 <= q < |t.written| ==>
              t.written[q].background
                == if env.pictureOk(job.bgValue, job.size, Lanczos, ItemAt(q, n))
                   then Picture(job.bgValue, job.size, Lanczos) else Fill(Black)
  {
    var fetch, t, n := Fetcher(job, env), Run(job, env), PerName(job);
    ImageOutcome(job, env);
    if n > 0 {
      RunBackgrounds(job, env, fetch);
      forall q | 0 <= q < |t.written|
        ensures t.written[q].background
                  == if env.pictureOk(job.bgValue, job.size, Lanczos, ItemAt(q, n))
                     then Picture(job.bgValue, job.size, Lanczos) else Fill(Black)
      {
        assert fetch(ItemAt(q, n)) == Background(job, env, ItemAt(q, n));
      }
    }
  }

  lemma ImageOutcome(job: Job, env: Env)
    requires ModeOf(job.mode) == Image
    requires SetUp(job, env)
    requires env.canvasOk(job.size) && env.color(job.ink).Some?
    ensures var t, names := Run(job, env), NamesOf(job, env);
            && (t.outcome == Success <==>
                  forall i :: 0 <= i < |names| ==>
                    Drawable(job.size) && (env.colourFile(job.bgValue) || !env.pictureOk(job.bgValue, job.size, Lanczos, i)))
            && (t.outcome.Failure? ==> t.outcome.fault == ConversionFailed)
  {
    var fetch, names := Fetcher(job, env), NamesOf(job, env);
    forall i | 0 <= i < |names|
      ensures var c := Compose(job, env, names[i], fetch(i)).result;
              && (c.Done? <==> Drawable(job.size) && (env.colourFile(job.bgValue) || !env.pictureOk(job.bgValue, job.size, Lanczos, i)))
              && (c.Raised? ==> c.fault == ConversionFailed)
    {
      ImageStep(job, env, i, names[i]);
    }
    RunOutcomeBy(job, env, fetch,
                 (i: nat) => Drawable(job.size) && (env.colourFile(job.bgValue) || !env.pictureOk(job.bgValue, job.size, Lanczos, i)),
                 ConversionFailed);
  }

  /** One name's iteration in image mode: it draws its frame unless the
      frame has no pixels, or the picture opened and cannot be converted. */
  lemma ImageStep(job: Job, env: Env, i: nat, name: string)
    requires ModeOf(job.mode) == Image
    requires env.canvasOk(job.size) && env.color(job.ink).Some?
    ensures var c := Compose(job, env, name, Fetcher(job, env)(i)).result;
            && (c.Done? <==> Drawable(job.size) && (env.colourFile(job.bgValue) || !env.pictureOk(job.bgValue, job.size, Lanczos, i)))
            && (c.Raised? ==> c.fault == ConversionFailed)
  {
    assert Fetcher(job, env)(i) == Background(job, env, i);
  }

  /** Video mode: every name shows a frame of the video at an index inside
      the video's frame count, or black exactly when the count is not
      positive or both reads fail. As long as the frame can be resized, a
      black canvas can be made and the text colour parses, every capture
      opened is released, and the run succeeds exactly when the frame has
      pixels (or there are no names); an empty frame fails the conversion
      for the writer. */
  lemma VideoRun(job: Job, env: Env)
    requires ModeOf(job.mode) == Video
    requires SetUp(job, env)
    requires env.canvasOk(job.size) && env.frameResizes(job.size) && env.color(job.ink).Some?
    ensures var t, n := Run(job, env), PerName(job);
            && (t.outcome == Success <==> NamesOf(job, env) == [] || Drawable(job.size))
            && (t.outcome.Failure? ==> t.outcome.fault == ConversionFailed)
            && t.capturesOpened == t.capturesReleased
            && (n > 0 ==> forall q :: 0 <= q < |t.written| ==>
                  var i, bg := ItemAt(q, n), t.written[q].background;
                  && (bg == Fill(Black) <==> VideoPick(job, env, i).None?)
                  && (bg != Fill(Black) ==>
                        bg == Still(job.bgValue, VideoPick(job, env, i).value, Some(job.size))
                        && 0 <= bg.index < env.frameCount(job.bgValue, i)))
  {
    var fetch, t, n := Fetcher(job, env), Run(job, env), PerName(job);
    VideoOutcome(job, env);
    if n > 0 {
      RunBackgrounds(job, env, fetch);
      forall q | 0 <= q < |t.written|
        ensures var i, bg := ItemAt(q, n), t.written[q].background;
                && (bg == Fill(Black) <==> VideoPick(job, env, i).None?)
                && (bg != Fill(Black) ==>
                      bg == Still(job.bgValue, VideoPick(job, env, i).value, Some(job.size))
                      && 0 <= bg.index < env.frameCount(job.bgValue, i))
      {
        var i := ItemAt(q, n);
        assert fetch(i) == VideoBackground(job, env, i);
      }
    }
  }

  lemma VideoOutcome(job: Job, env: Env)
    requires ModeOf(job.mode) == Video
    requires SetUp(job, env)
    requires env.canvasOk(job.size) && env.frameResizes(job.size) && env.color(job.ink).Some?
    ensures var t := Run(job, env);
            && (t.outcome == Success <==> NamesOf(job, env) == [] || Drawable(job.size))
            && (t.outcome.Failure? ==> t.outcome.fault == ConversionFailed)
            && t.capturesOpened == t.capturesReleased
  {
    var fetch, t, names := Fetcher(job, env), Run(job, env), NamesOf(job, env);
    forall i | 0 <= i < |names|
      ensures var c := Compose(job, env, names[i], fetch(i)).result;
              (c.Done? <==> Drawable(job.size)) && (c.Raised? ==> c.fault == ConversionFailed)
      ensures fetch(i).releases == fetch(i).opens
    {
      assert fetch(i) == VideoBackground(job, env, i);
    }
    RunOutcomeBy(job, env, fetch, _ => Drawable(job.size), ConversionFailed);
    if names != [] && t.outcome == Success {
      assert (_ => Drawable(job.size))(0);
    }
    RunBalanced(job, env, fetch);
  }

  /** A mode label no branch matches leaves `img` unbound: the run fails on
      the first name, before any frame is written, and succeeds (writing
      nothing) only when the name list is empty. */
  lemma UnknownModeRun(job: Job, env: Env)
    requires ModeOf(job.mode).Other?
    requires SetUp(job, env)
    ensures var t := Run(job, env);
            && t.written == []
            && (t.outcome == Success <==> NamesOf(job, env) == [])
            && (NamesOf(job, env) != [] ==> t.outcome == Failure(BackgroundUnbound))
  {
    var fetch := Fetcher(job, env);
    if NamesOf(job, env) != [] {
      RunFailsAtFirst(job, env, fetch);
    } else {
      assert Steps(job, env, fetch, NamesOf(job, env)) == [];
    }
  }
}

=== FILE: numerals.dfy ===
/** Reading numbers out of form fields the way Python's `int(s)` and
    `float(s)` do for decimal text: surrounding whitespace is ignored, an
    optional sign is allowed, and digits may be grouped with single
    underscores (`1_000`). `float` also takes a decimal point with digits
    on either side of it (`.5`, `5.`, `2.25`). */
module Numerals {

  import opened Optional

  /** The ASCII whitespace `int` and `float` strip: space, tab, the line
      and page breaks, and the separators `\x1c` to `\x1f`. */
  predicate IsSpace(c: char) {
    || c == ' ' || c == '\t' || c == '\n' || c == '\r' || c == '\U{000B}' || c == '\U{000C}'
    || c == '\U{001C}' || c == '\U{001D}' || c == '\U{001E}' || c == '\U{001F}'
  }

  predicate IsDigit(c: char) {
    '0' <= c <= '9'
  }

  function DigitValue(c: char): (d: nat)
    requires IsDigit(c)
    ensures d < 10
  {
    (c as int) - ('0' as int)
  }

  function DigitChar(d: nat): (c: char)
    requires d < 10
    ensures IsDigit(c) && DigitValue(c) == d
  {
    (('0' as int) + d) as char
  }

  function TrimStart(s: string): (t: string)
    ensures |t| <= |s|
    ensures t != [] ==> !IsSpace(t[0])
  {
    if s != [] && IsSpace(s[0]) then TrimStart(s[1..]) else s
  }

  function TrimEnd(s: string): (t: string)
    ensures |t| <= |s|
    ensures t != [] ==> !IsSpace(t[|t| - 1])
  {
    if s != [] && IsSpace(s[|s| - 1]) then TrimEnd(s[..|s| - 1]) else s
  }

  /** `s.strip()`. */
  function Trim(s: string): string {
    TrimEnd(TrimStart(s))
  }

  /** Digits, with single underscores allowed between two digits. */
  predicate IsDigitRun(s: string) {
    && |s| > 0
    && IsDigit(s[0])
    && IsDigit(s[|s| - 1])
    && (forall i :: 0 <= i < |s| ==> IsDigit(s[i]) || s[i] == '_')
    && (forall i :: 0 <= i < |s| - 1 ==> s[i] == '_' ==> s[i + 1] != '_')
  }

  /** The number a run of digits denotes; underscores do not count. */
  function RunValue(s: string): nat
    requires forall i :: 0 <= i < |s| ==> IsDigit(s[i]) || s[i] == '_'
  {
    if s == [] then 0
    else
      var last := s[|s| - 1];
      if last == '_' then RunValue(s[..|s| - 1])
      else 10 * RunValue(s[..|s| - 1]) + DigitValue(last)
  }

  /** How many digits (underscores excluded) a run has. */
  function DigitCount(s: string): nat
    requires forall i :: 0 <= i < |s| ==> IsDigit(s[i]) || s[i] == '_'
  {
    if s == [] then 0
    else (if s[|s| - 1] == '_' then 0 else 1) + DigitCount(s[..|s| - 1])
  }

  function Pow10(n: nat): (p: nat)
    ensures p >= 1
  {
    if n == 0 then 1 else 10 * Pow10(n - 1)
  }

  /** A sign and the unsigned text after it. */
  datatype Signed = Signed(negative: bool, body: string)

  function SplitSign(t: string): Signed {
    if t != [] && t[0] == '-' then Signed(true, t[1..])
    else if t != [] && t[0] == '+' then Signed(false, t[1..])
    else Signed(false, t)
  }

  /** A character allowed at position `i` of a number: a digit, an
      underscore, or a sign in front. */
  predicate IntChar(t: string, i: nat)
    requires i < |t|
  {
    IsDigit(t[i]) || t[i] == '_' || (i == 0 && (t[i] == '-' || t[i] == '+'))
  }

  /** Python's `int(s)` on decimal text; `None` stands for the `ValueError`.
      Accepted text is, once stripped, an optional sign and then digits and
      underscores ending in a digit; a negative value was written with `-`. */
  function ParseInt(s: string): (r: Option<int>)
    ensures r.Some? ==> var t := Trim(s);
              && t != [] && IsDigit(t[|t| - 1])
              && (forall i :: 0 <= i < |t| ==> IntChar(t, i))
    ensures r.Some? && r.value < 0 ==> Trim(s)[0] == '-'
  {
    var sg := SplitSign(Trim(s));
    if IsDigitRun(sg.body) then
      SignedRunChars(Trim(s));
      var v: int := RunValue(sg.body);
      Some(if sg.negative then -v else v)
    else None
  }

  /** Python's `float(s)` on decimal text; `None` stands for the
      `ValueError`. Accepted text is, once stripped, an optional sign and then
      digits, underscores and a point; a negative value was written with
      `-`. */
  function ParseReal(s: string): (r: Option<real>)
    ensures r.Some? ==> var t := Trim(s);
              && t != []
              && (forall i :: 0 <= i < |t| ==> IntChar(t, i) || t[i] == '.')
    ensures r.Some? && r.value < 0.0 ==> Trim(s)[0] == '-'
  {
    var sg := SplitSign(Trim(s));
    var m := Mantissa(sg.body);
    if m.Some? then
      SignedMantissaChars(Trim(s));
      Some(if sg.negative then -m.value else m.value)
    else None
  }

  /** An unsigned decimal: a digit run, or digit runs on one or both sides of
      a single point. */
  function Mantissa(b: string): (m: Option<real>)
    ensures m.Some? ==> m.value >= 0.0
  {
    if IsDigitRun(b) then Some(RunValue(b) as real)
    else
      var k := PointAt(b);
      if k == |b| then None
      else
        var whole, frac := b[..k], b[k + 1..];
        if whole == [] && frac == [] then None
        else if whole != [] && !IsDigitRun(whole) then None
        else if frac != [] && !IsDigitRun(frac) then None
        else
          var fraction := RunValue(frac) as real / Pow10(DigitCount(frac)) as real;
          assert fraction >= 0.0;
          Some(RunValue(whole) as real + fraction)
  }

  lemma SignedRunChars(t: string)
    requires IsDigitRun(SplitSign(t).body)
    ensures t != [] && IsDigit(t[|t| - 1])
    ensures forall i :: 0 <= i < |t| ==> IntChar(t, i)
    ensures SplitSign(t).negative ==> t[0] == '-'
  {
    var b := SplitSign(t).body;
    forall i | 0 <= i < |t|
      ensures IntChar(t, i)
    {
      if b != t {
        if i > 0 {
          assert t[i] == b[i - 1];
        }
      }
    }
  }

  lemma MantissaChars(b: string)
    requires Mantissa(b).Some?
    ensures b != []
    ensures forall i :: 0 <= i < |b| ==> IsDigit(b[i]) || b[i] == '_' || b[i] == '.'
  {
    if !IsDigitRun(b) {
      var k := PointAt(b);
      var whole, frac := b[..k], b[k + 1..];
      forall i | 0 <= i < |b|
        ensures IsDigit(b[i]) || b[i] == '_' || b[i] == '.'
      {
        if i < k {
          assert b[i] == whole[i];
        } else if i > k {
          assert b[i] == frac[i - k - 1];
        }
      }
    }
  }

  lemma SignedMantissaChars(t: string)
    requires Mantissa(SplitSign(t).body).Some?
    ensures t != []
    ensures forall i :: 0 <= i < |t| ==> IntChar(t, i) || t[i] == '.'
    ensures SplitSign(t).negative ==> t[0] == '-'
  {
    var b := SplitSign(t).body;
    MantissaChars(b);
    forall i | 0 <= i < |t|
      ensures IntChar(t, i) || t[i] == '.'
    {
      if b != t && i > 0 {
        assert t[i] == b[i - 1];
      }
    }
  }

  function PointAt(s: string): (k: nat)
    ensures k <= |s|
    ensures k < |s| ==> s[k] == '.'
    ensures forall i :: 0 <= i < k ==> s[i] != '.'
  {
    if s == [] then 0 else if s[0] == '.' then 0 else 1 + PointAt(s[1..])
  }

  /** Decimal digits of a natural number, most significant first. */
  function ShowNat(n: nat): (s: string)
    ensures |s| > 0
    ensures forall i :: 0 <= i < |s| ==> IsDigit(s[i])
  {
    if n < 10 then [DigitChar(n)] else ShowNat(n / 10) + [DigitChar(n % 10)]
  }

  /** `str(n)` for an integer: digits, with a `-` in front exactly when `n`
      is negative. */
  function ShowInt(n: int): (s: string)
    ensures s != []
    ensures n < 0 <==> s[0] == '-'
    ensures forall i :: 0 <= i < |s| ==> IsDigit(s[i]) || (i == 0 && s[i] == '-')
  {
    if n < 0 then "-" + ShowNat(-n) else ShowNat(n)
  }

  lemma {:induction false} RunValueOfShowNat(n: nat)
    ensures RunValue(ShowNat(n)) == n
    decreases n
  {
    if n >= 10 {
      var s := ShowNat(n);
      assert s[..|s| - 1] == ShowNat(n / 10);
      RunValueOfShowNat(n / 10);
    }
  }

  lemma TrimOfUnpadded(s: string)
    requires s != [] && !IsSpace(s[0]) && !IsSpace(s[|s| - 1])
    ensures Trim(s) == s
  {
  }

  /** Reading back the decimal text of any integer gives that integer. */
  lemma {:induction false} ParseIntOfShowInt(n: int)
    ensures ParseInt(ShowInt(n)) == Some(n)
  {
    var s := ShowInt(n);
    var digits := ShowNat(if n < 0 then -n else n);
    TrimOfUnpadded(s);
    assert SplitSign(s).body == digits;
    RunValueOfShowNat(if n < 0 then -n else n);
  }

  lemma TrimStartPadded(s: string)
    ensures TrimStart(" " + s) == TrimStart(s)
  {
    assert (" " + s)[1..] == s;
  }

  lemma TrimEndPadded(s: string)
    ensures TrimEnd(s + " ") == TrimEnd(s)
  {
    assert (s + " ")[..|s|] == s;
  }

  lemma TrimPadded(s: string)
    ensures Trim(" " + s + " ") == Trim(s)
  {
    assert " " + s + " " == " " + (s + " ");
    TrimStartPadded(s + " ");
    TrimStartAppendSpace(s);
    TrimEndPadded(TrimStart(s));
  }

  lemma TrimStartAppendSpace(s: string)
    ensures TrimStart(s + " ") == TrimStart(s) + " " || (TrimStart(s) == [] && TrimStart(s + " ") == [])
    ensures TrimEnd(TrimStart(s + " ")) == TrimEnd(TrimStart(s))
  {
    if s != [] {
      assert (s + " ")[0] == s[0];
      if IsSpace(s[0]) {
        assert (s + " ")[1..] == s[1..] + " ";
        TrimStartAppendSpace(s[1..]);
      } else {
        TrimEndPadded(s);
      }
    } else {
      assert TrimStart(" ") == [];
    }
  }

  /** Spaces around a number do not change what `int` reads. */
  lemma ParseIntIgnoresPadding(s: string)
    ensures ParseInt(" " + s + " ") == ParseInt(s)
  {
    TrimPadded(s);
  }

  /** Text `int` accepts is read by `float` as the same number. */
  lemma ParseRealOfInteger(s: string)
    requires ParseInt(s).Some?
    ensures ParseReal(s) == Some(ParseInt(s).value as real)
  {
  }
}

=== FILE: old_form.dfy ===
/** The input checks of the earlier form (`mian.py`, `generate_video`). It
    takes the frame size as one `"width,height"` field, read with
    `map(int, s.split(','))` and unpacked into exactly two numbers; otherwise
    its checks are those of the current form, with the video label `视频`. */
module OldForm {

  import opened Optional
  import opened Lines
  import opened Numerals
  import opened Pipeline
  import opened Runs
  import opened Controls
  import OldRun

  /** The text of the form's fields as `Entry.get` returns it. */
  datatype Fields = Fields(
    font: string, names: string, output: string,
    fps: string, resolution: string, interval: string, textSize: string,
    ink: string, mode: string, bgValue: string)

  /** Every required field is non-empty; the background value is not one of
      them. */
  predicate Filled(f: Fields) {
    && f.font != [] && f.names != [] && f.output != []
    && f.fps != [] && f.resolution != [] && f.interval != [] && f.textSize != []
    && f.ink != []
  }

  /** `width, height = map(int, s.split(','))`: exactly two pieces, each an
      integer; too few or too many pieces raise `ValueError` like a piece
      that is not a number. */
  function ParseResolution(s: string): (r: Option<Size>)
    ensures r.Some? <==> |SplitOn(s, ',')| == 2 && ParseInt(SplitOn(s, ',')[0]).Some? && ParseInt(SplitOn(s, ',')[1]).Some?
    ensures r.Some? ==> Some(r.value.width) == ParseInt(SplitOn(s, ',')[0]) && Some(r.value.height) == ParseInt(SplitOn(s, ',')[1])
  {
    var parts := SplitOn(s, ',');
    if |parts| != 2 then None
    else
      var w, h := ParseInt(parts[0]), ParseInt(parts[1]);
      if w.Some? && h.Some? then Some(Size(w.value, h.value)) else None
  }

  /** A resolution is read only from text with exactly one comma. */
  lemma ResolutionHasOneComma(s: string)
    requires ParseResolution(s).Some?
    ensures Occurrences(s, ',') == 1
  {
    SplitOnCount(s, ',');
  }

  /** Text without a comma, or with two or more, is refused. */
  lemma ResolutionNeedsOneComma(s: string)
    requires Occurrences(s, ',') != 1
    ensures ParseResolution(s) == None
  {
    SplitOnCount(s, ',');
  }

  lemma NoComma(n: int)
    ensures ',' !in ShowInt(n)
  {
  }

  /** `str(w) + "," + str(h)` reads back as the size `(w, h)`. */
  lemma ParseResolutionOfShown(w: int, h: int)
    ensures ParseResolution(ShowInt(w) + "," + ShowInt(h)) == Some(Size(w, h))
  {
    NoComma(w);
    NoComma(h);
    var parts := [ShowInt(w), ShowInt(h)];
    assert JoinOn(parts, ',') == ShowInt(w) + "," + ShowInt(h) by {
      assert parts[1..] == [ShowInt(h)];
    }
    SplitOfJoin(parts, ',');
    ParseIntOfShowInt(w);
    ParseIntOfShowInt(h);
  }

  /** Every numeric field reads as a number. */
  predicate Numeric(f: Fields) {
    && ParseInt(f.fps).Some? && ParseResolution(f.resolution).Some?
    && ParseReal(f.interval).Some? && ParseInt(f.textSize).Some?
  }

  /** The modes for which a background file must exist. */
  predicate NeedsFile(mode: string) {
    mode == OldRun.ImageLabel || mode == OldRun.VideoLabel
  }

  /** `generate_video`'s checks in order, with `present` standing for
      `os.path.exists`; the job is what the worker thread is started with. */
  function Validate(f: Fields, present: string -> bool): (v: Verdict)
    ensures v == Refused(FieldsEmpty) <==> !Filled(f)
    ensures v == Refused(NotANumber) <==> Filled(f) && !Numeric(f)
    ensures v == Refused(FontOrNamesMissing) <==> Filled(f) && Numeric(f) && !(present(f.font) && present(f.names))
    ensures v == Refused(BackgroundMissing) <==>
              Filled(f) && Numeric(f) && present(f.font) && present(f.names) && NeedsFile(f.mode) && !present(f.bgValue)
    ensures v.Accepted? ==>
              && v.job.fontPath == f.font && v.job.namePath == f.names && v.job.outputPath == f.output
              && Some(v.job.fps) == ParseInt(f.fps)
              && Some(v.job.size) == ParseResolution(f.resolution)
              && Some(v.job.interval) == ParseReal(f.interval)
              && Some(v.job.textSize) == ParseInt(f.textSize)
              && v.job.ink == f.ink && v.job.mode == f.mode && v.job.bgValue == f.bgValue
  {
    if !Filled(f) then Refused(FieldsEmpty)
    else
      var fps, size, interval, textSize :=
        ParseInt(f.fps), ParseResolution(f.resolution), ParseReal(f.interval), ParseInt(f.textSize);
      if fps.None? || size.None? || interval.None? || textSize.None? then Refused(NotANumber)
      else if !present(f.font) || !present(f.names) then Refused(FontOrNamesMissing)
      else if NeedsFile(f.mode) && !present(f.bgValue) then Refused(BackgroundMissing)
      else Accepted(Job(f.names, f.font, f.output, fps.value, size.value, interval.value, textSize.value, f.ink, f.mode, f.bgValue))
  }

  /** The form filled in with a job's values: numbers as `str` writes them,
      the size as `"width,height"` and the interval as the given text. */
  function FieldsOf(job: Job, interval: string): Fields {
    Fields(job.fontPath, job.namePath, job.outputPath,
           ShowInt(job.fps), ShowInt(job.size.width) + "," + ShowInt(job.size.height), interval, ShowInt(job.textSize),
           job.ink, job.mode, job.bgValue)
  }

  /** Filling the form in from a job gives that job back, as long as the paths
      and the text colour are not empty and the files the checks look for
      exist. */
  lemma ValidateOfFields(job: Job, interval: string, present: string -> bool)
    requires job.fontPath != [] && job.namePath != [] && job.outputPath != [] && job.ink != []
    requires ParseReal(interval) == Some(job.interval)
    requires present(job.fontPath) && present(job.namePath)
    requires NeedsFile(job.mode) ==> present(job.bgValue)
    ensures Validate(FieldsOf(job, interval), present) == Accepted(job)
  {
    var f := FieldsOf(job, interval);
    ParseIntOfShowInt(job.fps);
    ParseIntOfShowInt(job.textSize);
    ParseResolutionOfShown(job.size.width, job.size.height);
    assert Filled(f) && Numeric(f);
  }

  /** The mode list's own video entry is not a label the checks know: it
      needs no background file, and with a name to show the run then ends in
      the error box. */
  lemma OfferedVideoFails(f: Fields, present: string -> bool, env: Env)
    requires f.mode == OldRun.OfferedVideoLabel
    requires Filled(f) && Numeric(f) && present(f.font) && present(f.names)
    requires var job := Validate(f, present).job; SetUp(job, env) && NamesOf(job, env) != []
    ensures Validate(f, present).Accepted?
    ensures Press(f, present, env).notices == [RunFailed(BackgroundUnbound)]
  {
    var job := Validate(f, present).job;
    OldRun.OfferedVideoFails(job, env);
  }

  /** A click on the earlier form. */
  function Press(f: Fields, present: string -> bool, env: Env): Session {
    Click(Validate(f, present), (job: Job) => OldRun.Run(job, env))
  }

  /** A click ends with exactly one message box and the button enabled; the
      worker is started exactly when every check passes; the values set on
      the progress variable are 0 and then the worker's rising values, the
      last of them 100 after a successful run that wrote frames. */
  lemma PressShape(f: Fields, present: string -> bool, env: Env)
    ensures var s := Press(f, present, env);
            && |s.notices| == 1 && s.buttonEnabled
            && (s.started <==> Validate(f, present).Accepted?)
            && (s.started ==> s.progress[0] == 0.0
                              && (forall i :: 0 <= i < |s.progress| ==> 0.0 <= s.progress[i] <= 100.0)
                              && (s.notices == [Succeeded] && |s.progress| > 1 ==> s.progress[|s.progress| - 1] == 100.0))
  {
    var v := Validate(f, present);
    if v.Accepted? {
      ClickProgress(v, (job: Job) => OldRun.Run(job, env), env, OldRun.Fetcher(v.job, env));
    }
  }
}

=== FILE: old_run.dfy ===
/** The background rule of the earlier worker (`mian.py`): a solid colour,
    a still image re-opened and resized with Pillow's default filter for every
    name with a black fallback, or the first frame of the background video,
    used at the video's own size, with a black fallback. */
module OldRun {

  import opened Optional
  import opened Schedule
  import opened Pipeline
  import opened Runs
  import MainRun

  const SolidLabel: string := "纯色"
  const ImageLabel: string := "图片"
  /** The label the worker's video branch tests for. */
  const VideoLabel: string := "视频"
  /** The video entry the mode list offers. The list is editable, so any
      other label, `视频` included, can also be typed in. */
  const OfferedVideoLabel: string := "视频（存在bug，有能力的解决）"

  /** The branch a mode label selects. A label that is none of the three
      branch labels falls through every test and is kept as `Other`. */
  function ModeOf(choice: string): (m: Mode)
    ensures m.Other? <==> choice != SolidLabel && choice != ImageLabel && choice != VideoLabel
    ensures m.Other? ==> m.choice == choice
  {
    if choice == SolidLabel then Solid
    else if choice == ImageLabel then Image
    else if choice == VideoLabel then Video
    else Other(choice)
  }

  /** Distinct labels select distinct branches: the dispatch confuses no
      two labels. */
  lemma ModeOfInjective(a: string, b: string)
    requires ModeOf(a) == ModeOf(b)
    ensures a == b
  {
  }

  /** The video entry the mode list offers does not reach the video branch,
      which tests for a shorter label; only `视频` typed into the editable
      list does. */
  lemma VideoBranchUnreachableFromForm()
    ensures ModeOf(OfferedVideoLabel) == Other(OfferedVideoLabel)
    ensures ModeOf(VideoLabel) == Video
  {
  }

  /** The video branch for name `i`: the capture is re-opened for every name
      and its first frame read; that frame is used unresized. The capture is
      released unless making the black fallback raises. */
  function VideoBackground(job: Job, env: Env, i: nat): (e: Effect<Background>)
    ensures e.opens == 1
    ensures e.result.Done? <==> e.releases == 1
    ensures e.result.Done? ==>
              e.result.value == (if env.readsAt(job.bgValue, 0, i) then Still(job.bgValue, 0, None) else Fill(Black))
  {
    if env.readsAt(job.bgValue, 0, i) then Effect(Done(Still(job.bgValue, 0, None)), 1, 1)
    else
      var black := BlackCanvas(env, job.size);
      Effect(black, 1, if black.Done? then 1 else 0)
  }

  /** The background of name `i` under the job's mode. Only the video branch
      opens a capture, and it releases it unless the branch raises; only an
      unknown label leaves `img` unbound; in image mode the name gets a
      background whenever the picture loads or a black canvas can be made. */
  function Background(job: Job, env: Env, i: nat): (e: Effect<Background>)
    ensures e.releases <= e.opens <= 1
    ensures e.result.Done? ==> e.releases == e.opens
    ensures e.opens == 1 <==> ModeOf(job.mode) == Video
    ensures e.result == Raised(BackgroundUnbound) <==> ModeOf(job.mode).Other?
    ensures ModeOf(job.mode) == Image ==>
              (e.result.Done? <==> env.pictureOk(job.bgValue, job.size, Default, i) || env.canvasOk(job.size))
  {
    match ModeOf(job.mode)
    case Solid => Effect(SolidCanvas(job, env), 0, 0)
    case Image =>
      var filter := Default;
      if env.pictureOk(job.bgValue, job.size, filter, i) then Effect(Done(Picture(job.bgValue, job.size, filter)), 0, 0)
      else Effect(BlackCanvas(env, job.size), 0, 0)
    case Video => VideoBackground(job, env, i)
    case Other(_) => Effect(Raised(BackgroundUnbound), 0, 0)
  }

  function Fetcher(job: Job, env: Env): nat -> Effect<Background> {
    (i: nat) => Background(job, env, i)
  }

  /** One run of the earlier worker. */
  function Run(job: Job, env: Env): Trace {
    Expected(job, env, Fetcher(job, env))
  }

  /** The run as the worker executes it, loop by loop. */
  method Generate(job: Job, env: Env) returns (t: Trace)
    ensures t == Run(job, env)
  {
    t := Pipeline.Generate(job, env, Fetcher(job, env));
  }

  /** A video that yields its first frame yields it for every name: all names
      of a successful video run are written on that one frame, unresized. */
  lemma VideoRun(job: Job, env: Env)
    requires ModeOf(job.mode) == Video
    requires SetUp(job, env)
    requires env.color(job.ink).Some?
    requires forall i :: 0 <= i < |NamesOf(job, env)| ==> env.readsAt(job.bgValue, 0, i)
    ensures var t, n := Run(job, env), PerName(job);
            && t.outcome == Success
            && t.capturesOpened == t.capturesReleased == |NamesOf(job, env)|
            && (n > 0 ==> forall q :: 0 <= q < |t.written| ==> t.written[q].background == Still(job.bgValue, 0, None))
  {
    var fetch, t, n := Fetcher(job, env), Run(job, env), PerName(job);
    var names := NamesOf(job, env);
    var still := Effect(Done(Still(job.bgValue, 0, None)), 1, 1);
    forall i | 0 <= i < |names|
      ensures fetch(i) == still
    {
      assert fetch(i) == VideoBackground(job, env, i);
    }
    RunSucceeds(job, env, fetch);
    var steps := Steps(job, env, fetch, names);
    FirstRaisedAll(steps);
    forall q | 0 <= q < |steps|
      ensures steps[q].opens == 1 && steps[q].releases == 1
    {
      assert steps[q] == Compose(job, env, names[q], fetch(q));
    }
    assert steps[..|steps|] == steps;
    CountOnes(steps);
    if n > 0 {
      RunBackgrounds(job, env, fetch);
      RunWritesNamesInOrder(job, env, fetch);
      forall q | 0 <= q < |t.written|
        ensures t.written[q].background == Still(job.bgValue, 0, None)
      {
          assert fetch(ItemAt(q, n)) == still;
      }
    }
  }

  lemma {:induction false} CountOnes(steps: seq<Effect<Frame>>)
    requires forall q :: 0 <= q < |steps| ==> steps[q].opens == 1 && steps[q].releases == 1
    ensures Opened(steps) == ReleasedCaptures(steps) == |steps|
  {
    if steps != [] {
      CountOnes(steps[..|steps| - 1]);
    }
  }

  /** Image mode: a failure to open or resize the image only turns that
      name's background black, decided for that name alone. With a black
      canvas the size allows and a text colour that parses, the run fails
      only when the conversion for the writer refuses a name's image: when
      the frame has no pixels, or when a picture that did open has one or
      two channels. */
  lemma ImageRun(job: Job, env: Env)
    requires ModeOf(job.mode) == Image
    requires SetUp(job, env)
    requires env.canvasOk(job.size) && env.color(job.ink).Some?
    ensures var t, names := Run(job, env), NamesOf(job, env);
            && (t.outcome == Success <==>
                  forall i :: 0 <= i < |names| ==>
                    Drawable(job.size) && (env.colourFile(job.bgValue) || !env.pictureOk(job.bgValue, job.size, Default, i)))
            && (t.outcome.Failure? ==> t.outcome.fault == ConversionFailed)
    ensures var t, n := Run(job, env), PerName(job);
            n > 0 ==> forall q :: 0 <= q < |t.written| ==>
              t.written[q].background
                == if env.pictureOk(job.bgValue, job.size, Default, ItemAt(q, n))
                   then Picture(job.bgValue, job.size, Default) else Fill(Black)
  {
    var fetch, t, n := Fetcher(job, env), Run(job, env), PerName(job);
    ImageOutcome(job, env);
    if n > 0 {
      RunBackgrounds(job, env, fetch);
      forall q | 0 <= q < |t.written|
        ensures t.written[q].background
                  == if env.pictureOk(job.bgValue, job.size, Default, ItemAt(q, n))
                     then Picture(job.bgValue, job.size, Default) else Fill(Black)
      {
        assert fetch(ItemAt(q, n)) == Background(job, env, ItemAt(q, n));
      }
    }
  }

  lemma ImageOutcome(job: Job, env: Env)
    requires ModeOf(job.mode) == Image
    requires SetUp(job, env)
    requires env.canvasOk(job.size) && env.color(job.ink).Some?
    ensures var t, names := Run(job, env), NamesOf(job, env);
            && (t.outcome == Success <==>
                  forall i :: 0 <= i < |names| ==>
                    Drawable(job.size) && (env.colourFile(job.bgValue) || !env.pictureOk(job.bgValue, job.size, Default, i)))
            && (t.outcome.Failure? ==> t.outcome.fault == ConversionFailed)
  {
    var fetch, names := Fetcher(job, env), NamesOf(job, env);
    forall i | 0 <= i < |names|
      ensures var c := Compose(job, env, names[i], fetch(i)).result;
              && (c.Done? <==> Drawable(job.size) && (env.colourFile(job.bgValue) || !env.pictureOk(job.bgValue, job.size, Default, i)))
              && (c.Raised? ==> c.fault == ConversionFailed)
    {
      ImageStep(job, env, i, names[i]);
    }
    RunOutcomeBy(job, env, fetch,
                 (i: nat) => Drawable(job.size) && (env.colourFile(job.bgValue) || !env.pictureOk(job.bgValue, job.size, Default, i)),
                 ConversionFailed);
  }

  /** One name's iteration in image mode: it draws its frame unless the
      frame has no pixels, or the picture opened and cannot be converted. */
  lemma ImageStep(job: Job, env: Env, i: nat, name: string)
    requires ModeOf(job.mode) == Image
    requires env.canvasOk(job.size) && env.color(job.ink).Some?
    ensures var c := Compose(job, env, name, Fetcher(job, env)(i)).result;
            && (c.Done? <==> Drawable(job.size) && (env.colourFile(job.bgValue) || !env.pictureOk(job.bgValue, job.size, Default, i)))
            && (c.Raised? ==> c.fault == ConversionFailed)
  {
    assert Fetcher(job, env)(i) == Background(job, env, i);
  }

  /** The mode list's own video entry matches no branch: with any name to
      show, the run fails on the first name before writing a frame. */
  lemma OfferedVideoFails(job: Job, env: Env)
    requires job.mode == OfferedVideoLabel
    requires SetUp(job, env)
    requires NamesOf(job, env) != []
    ensures Run(job, env).outcome == Failure(BackgroundUnbound)
    ensures Run(job, env).written == [] && Run(job, env).writer == Open
  {
    var fetch := Fetcher(job, env);
    assert fetch(0) == Effect(Raised(BackgroundUnbound), 0, 0);
    RunFailsAtFirst(job, env, fetch);
    RunWriterFate(job, env, fetch);
  }

  /** On a solid colour the two workers produce the same run. */
  lemma SolidAgrees(job: Job, env: Env)
    requires job.mode == SolidLabel
    ensures Run(job, env) == MainRun.Run(job, env)
  {
    var f, g := Fetcher(job, env), MainRun.Fetcher(job, env);
    forall i: nat
      ensures f(i) == g(i)
    {
      assert f(i) == Background(job, env, i);
      assert g(i) == MainRun.Background(job, env, i);
    }
    SameBackgroundsSameRun(job, env, f, g);
  }

  /** On a label neither worker knows, both fail the same way. */
  lemma UnknownAgrees(job: Job, env: Env)
    requires ModeOf(job.mode).Other? && MainRun.ModeOf(job.mode).Other?
    ensures Run(job, env) == MainRun.Run(job, env)
  {
    var f, g := Fetcher(job, env), MainRun.Fetcher(job, env);
    forall i: nat
      ensures f(i) == g(i)
    {
      assert f(i) == Background(job, env, i);
      assert g(i) == MainRun.Background(job, env, i);
    }
    SameBackgroundsSameRun(job, env, f, g);
  }
}

=== FILE: optional.dfy ===
/** The optional value used for every "may fail" answer in the model. */
module Optional {

  datatype Option<T> = None | Some(value: T)
}

=== FILE: pipeline.dfy ===
/** The worker `generate_name_video`, the part both versions share: read the
    names, create the writer, load the font, then for each name resolve a
    background, draw the centred name on it and write the result
    `frames_per_name` times, publishing progress after every write; release
    the writer and report success, or report the first exception raised.

    Everything the worker asks of a library (file reading, font loading,
    colour parsing, image creation, decoding and resizing, video capture,
    text metrics, the random generator) is an oracle in `Env`, so that no
    claim is made about how those libraries behave. The per-name background
    rule differs between the two versions and is passed in as `fetch`. */
module Pipeline {

  import opened Optional
  import opened Lines
  import opened Schedule
  import opened Layout

  datatype Rgb = Rgb(red: int, green: int, blue: int)

  const Black := Rgb(0, 0, 0)

  datatype Size = Size(width: int, height: int)

  /** The resampling filter of an image resize: `Image.LANCZOS`, or
      `Default` when no filter is passed and Pillow picks its own. */
  datatype Filter = Lanczos | Default

  /** The base image a name is drawn on. */
  datatype Background =
    | Fill(color: Rgb)                                 // `Image.new` in one colour
    | Picture(path: string, size: Size, filter: Filter) // a still image, resized
    | Still(path: string, index: int, resized: Option<Size>) // one decoded video frame

  /** One composited frame: the background with the name drawn at `(x, y)`
      in the colour `ink`. The pixels themselves are not modelled. */
  datatype Frame = Frame(name: string, background: Background, x: int, y: int, ink: Rgb)

  /** The background mode a mode label selects; `Other` is any label that
      matches none of the version's branches. */
  datatype Mode = Solid | Image | Video | Other(choice: string)

  /** The exception that ends a run, by where it is raised. */
  datatype Fault =
    | NamesUnreadable     // opening or decoding the name file
    | FontUnloadable      // `ImageFont.truetype`
    | CanvasRejected      // `Image.new` refused the size or the colour
    | FrameResizeFailed   // `cv2.resize` of a decoded video frame
    | BackgroundUnbound   // no branch bound `img`
    | InkRejected         // `draw.text` refused the text colour
    | ConversionFailed    // `cv2.cvtColor` refused an image without 3 or 4 channels

  datatype Outcome = Success | Failure(fault: Fault)

  /** The video writer: never created, created and left open, or released. */
  datatype Writer = NotCreated | Open | Released

  /** The parameters the worker thread is started with. */
  datatype Job = Job(
    namePath: string, fontPath: string, outputPath: string,
    fps: int, size: Size, interval: real, textSize: int,
    ink: string, mode: string, bgValue: string)

  /** Answers of the libraries the worker calls. Oracles that take a `nat`
      are asked once per name, with the name's index: the worker re-opens the
      image or the video for every name, so each attempt may go its own way. */
  datatype Env = Env(
    readText: string -> Option<string>,
    fontLoads: (string, int) -> bool,
    color: string -> Option<Rgb>,
    canvasOk: Size -> bool,
    pictureOk: (string, Size, Filter, nat) -> bool,
    frameCount: (string, nat) -> int,
    readsAt: (string, int, nat) -> bool,
    frameResizes: Size -> bool,
    textBox: (string, int, string) -> Box,
    colourFile: string -> bool,
    draw: nat -> nat)

  /** A frame size with at least one pixel. */
  predicate Drawable(size: Size) {
    size.width > 0 && size.height > 0
  }

  /** Whether `cv2.cvtColor(np.array(img), cv2.COLOR_RGB2BGR)` accepts the
      composited image, `frame` being the job's frame size: the image must
      not be empty and must have 3 or 4 channels. `Image.new` makes a canvas
      of the frame size even when it has no pixels; a resize makes an image
      of the size asked for. Solid colours, black canvases and decoded video
      frames are RGB; a picture keeps the mode of its file (grey, palette or
      bilevel files have one or two channels), which `colourFile` tells. A
      video frame used at its own size was read successfully, so it is not
      empty. */
  predicate Converts(env: Env, frame: Size, bg: Background) {
    match bg
    case Fill(_) => Drawable(frame)
    case Still(_, _, None) => true
    case Still(_, _, Some(size)) => Drawable(size)
    case Picture(path, size, _) => Drawable(size) && env.colourFile(path)
  }

  /** A step that either yields a value or raises. */
  datatype Attempt<T> = Done(value: T) | Raised(fault: Fault)

  /** A step's result and how many video captures it opened and released. */
  datatype Effect<T> = Effect(result: Attempt<T>, opens: nat, releases: nat)

  /** Everything one run leaves behind. */
  datatype Trace = Trace(
    outcome: Outcome,
    written: seq<Frame>,
    progress: seq<real>,
    writer: Writer,
    capturesOpened: nat,
    capturesReleased: nat)

  /** The black `Image.new` every fallback uses; only the size can be
      refused, since the colour is a literal triple. */
  function BlackCanvas(env: Env, size: Size): (a: Attempt<Background>)
    ensures a.Done? <==> env.canvasOk(size)
    ensures a.Done? ==> a.value == Fill(Black)
  {
    if env.canvasOk(size) then Done(Fill(Black)) else Raised(CanvasRejected)
  }

  /** The `纯色` branch shared by both versions: `Image.new` with the colour
      string of the background field. */
  function SolidCanvas(job: Job, env: Env): (a: Attempt<Background>)
    ensures a.Done? <==> env.canvasOk(job.size) && env.color(job.bgValue).Some?
    ensures a.Done? ==> a.value == Fill(env.color(job.bgValue).value)
  {
    var c := env.color(job.bgValue);
    if env.canvasOk(job.size) && c.Some? then Done(Fill(c.value)) else Raised(CanvasRejected)
  }

  /** The frame's text origin centres the extents (width and height) of the
      name's bounding box, as the font measures it, in the frame on both axes
      to within one pixel. The box's left and top offsets are not taken into
      account, as in the source; `Layout.DrawnBoxOffset` says where the ink
      then lands. */
  predicate Centred(job: Job, env: Env, f: Frame) {
    var box := env.textBox(job.fontPath, job.textSize, f.name);
    && 0 <= (job.size.width - box.Width()) - 2 * f.x <= 1
    && 0 <= (job.size.height - box.Height()) - 2 * f.y <= 1
  }

  /** Drawing one name: measure it, place it, draw it in the text colour,
      then convert the image for the writer. */
  function Compose(job: Job, env: Env, name: string, fetched: Effect<Background>): (e: Effect<Frame>)
    ensures e.opens == fetched.opens && e.releases == fetched.releases
    ensures e.result.Done? <==>
              fetched.result.Done? && env.color(job.ink).Some? && Converts(env, job.size, fetched.result.value)
    ensures e.result.Done? ==>
              && e.result.value.name == name
              && e.result.value.background == fetched.result.value
              && e.result.value.ink == env.color(job.ink).value
              && Centred(job, env, e.result.value)
    ensures fetched.result.Raised? ==> e.result == Raised(fetched.result.fault)
    ensures fetched.result.Done? && env.color(job.ink).None? ==> e.result == Raised(InkRejected)
    ensures fetched.result.Done? && env.color(job.ink).Some? && !Converts(env, job.size, fetched.result.value) ==>
              e.result == Raised(ConversionFailed)
  {
    var result := match fetched.result
      case Raised(f) => Raised(f)
      case Done(bg) =>
        match env.color(job.ink)
        case None => Raised(InkRejected)
        case Some(ink) =>
          if !Converts(env, job.size, bg) then Raised(ConversionFailed)
          else
            var xy := Origin(job.size.width, job.size.height, env.textBox(job.fontPath, job.textSize, name));
            Done(Frame(name, bg, xy.0, xy.1, ink));
    Effect(result, fetched.opens, fetched.releases)
  }

  /** What each name's iteration would yield, were it reached. */
  function Steps(job: Job, env: Env, fetch: nat -> Effect<Background>, names: seq<string>): (s: seq<Effect<Frame>>)
    ensures |s| == |names|
  {
    seq(|names|, i requires 0 <= i < |names| => Compose(job, env, names[i], fetch(i)))
  }

  predicate AllDone(steps: seq<Effect<Frame>>) {
    forall q :: 0 <= q < |steps| ==> steps[q].result.Done?
  }

  /** Index of the first iteration that raises, or the number of names. */
  function FirstRaised(steps: seq<Effect<Frame>>): (k: nat)
    ensures k <= |steps|
    ensures AllDone(steps[..k])
    ensures k < |steps| ==> steps[k].result.Raised?
  {
    if steps == [] then 0
    else if steps[0].result.Raised? then 0
    else
      var k := 1 + FirstRaised(steps[1..]);
      assert steps[..k] == [steps[0]] + steps[1..][..k - 1];
      k
  }

  function FramesOf(steps: seq<Effect<Frame>>): (fs: seq<Frame>)
    requires AllDone(steps)
    ensures |fs| == |steps|
  {
    seq(|steps|, q requires 0 <= q < |steps| => steps[q].result.value)
  }

  function Opened(steps: seq<Effect<Frame>>): nat {
    if steps == [] then 0 else Opened(steps[..|steps| - 1]) + steps[|steps| - 1].opens
  }

  function ReleasedCaptures(steps: seq<Effect<Frame>>): nat {
    if steps == [] then 0 else ReleasedCaptures(steps[..|steps| - 1]) + steps[|steps| - 1].releases
  }

  lemma PositiveTotal(k: nat, count: nat, perName: int)
    requires k <= count
    requires k * Max0(perName) > 0
    ensures count * perName > 0
  {
    MulMono(k, count, perName);
  }

  /** The trace the worker produces, stated declaratively: the frames of the
      names before the first failing one, each repeated `frames_per_name`
      times, the progress after each of those writes, and the writer
      released only when no name failed. */
  function Expected(job: Job, env: Env, fetch: nat -> Effect<Background>): (t: Trace)
    ensures t.writer == NotCreated <==> env.readText(job.namePath).None?
    ensures t.outcome == Success <==> t.writer == Released
    ensures |t.progress| == |t.written|
    ensures !(env.readText(job.namePath).Some? && env.fontLoads(job.fontPath, job.textSize)) ==>
              t.outcome.Failure? && t.written == [] && t.capturesOpened == 0
  {
    match env.readText(job.namePath)
    case None => Trace(Failure(NamesUnreadable), [], [], NotCreated, 0, 0)
    case Some(text) =>
      if !env.fontLoads(job.fontPath, job.textSize) then Trace(Failure(FontUnloadable), [], [], Open, 0, 0)
      else
        var names := SplitLines(text);
        Unfold(Steps(job, env, fetch, names), FramesPerName(job.interval, job.fps))
  }

  /** The loop's part of the trace, given what each name's iteration yields. */
  function Unfold(steps: seq<Effect<Frame>>, perName: int): (t: Trace)
    ensures t.outcome == Success <==> FirstRaised(steps) == |steps|
    ensures t.outcome == Success <==> t.writer == Released
    ensures t.writer != NotCreated
    ensures |t.written| == FirstRaised(steps) * Max0(perName)
    ensures |t.progress| == |t.written|
    ensures t.outcome.Failure? ==>
              FirstRaised(steps) < |steps| && t.outcome.fault == steps[FirstRaised(steps)].result.fault
  {
    var k := FirstRaised(steps);
    var written := Stream(FramesOf(steps[..k]), perName);
    var reached := if k < |steps| then k + 1 else k;
    assert |written| > 0 ==> |steps| * perName > 0 by {
      if |written| > 0 { PositiveTotal(k, |steps|, perName); }
    }
    Trace(
      if k == |steps| then Success else Failure(steps[k].result.fault),
      written,
      ProgressTrace(|written|, |steps| * perName),
      if k == |steps| then Released else Open,
      Opened(steps[..reached]),
      ReleasedCaptures(steps[..reached]))
  }

  lemma UnfoldRaised(steps: seq<Effect<Frame>>, perName: int, i: nat)
    requires i < |steps| && i <= FirstRaised(steps) && steps[i].result.Raised?
    ensures FirstRaised(steps) == i
    ensures var w := Stream(FramesOf(steps[..i]), perName);
            (|w| == 0 || |steps| * perName > 0)
            && Unfold(steps, perName)
               == Trace(Failure(steps[i].result.fault), w, ProgressTrace(|w|, |steps| * perName),
                        Open, Opened(steps[..i + 1]), ReleasedCaptures(steps[..i + 1]))
  {
    var w := Stream(FramesOf(steps[..i]), perName);
    if |w| > 0 {
      PositiveTotal(i, |steps|, perName);
    }
  }

  lemma UnfoldAll(steps: seq<Effect<Frame>>, perName: int)
    requires FirstRaised(steps) == |steps|
    ensures steps[..|steps|] == steps
    ensures var w := Stream(FramesOf(steps), perName);
            (|w| == 0 || |steps| * perName > 0)
            && Unfold(steps, perName)
               == Trace(Success, w, ProgressTrace(|w|, |steps| * perName),
                        Released, Opened(steps), ReleasedCaptures(steps))
  {
    assert steps[..|steps|] == steps;
    var w := Stream(FramesOf(steps), perName);
    if |w| > 0 {
      PositiveTotal(|steps|, |steps|, perName);
    }
  }

  lemma ProgressSnoc(count: nat, total: int)
    requires total > 0
    ensures ProgressTrace(count + 1, total) == ProgressTrace(count, total) + [Progress(count + 1, total)]
  {
  }

  lemma FramesOfSnoc(steps: seq<Effect<Frame>>, i: nat)
    requires i < |steps|
    requires AllDone(steps[..i + 1])
    ensures steps[..i + 1][..i] == steps[..i]
    ensures FramesOf(steps[..i + 1]) == FramesOf(steps[..i]) + [steps[i].result.value]
  {
    assert steps[..i + 1][..i] == steps[..i];
  }

  lemma CountSnoc(steps: seq<Effect<Frame>>, i: nat)
    requires i < |steps|
    ensures Opened(steps[..i + 1]) == Opened(steps[..i]) + steps[i].opens
    ensures ReleasedCaptures(steps[..i + 1]) == ReleasedCaptures(steps[..i]) + steps[i].releases
  {
    assert steps[..i + 1][..i] == steps[..i];
  }

  /** One more name's frames: the stream of the first `i + 1` names is that
      of the first `i` followed by the copies of name `i`, and it still fits
      in the total. */
  lemma StreamStep(steps: seq<Effect<Frame>>, perName: int, i: nat)
    requires i < |steps| && i <= FirstRaised(steps) && steps[i].result.Done?
    ensures i + 1 <= FirstRaised(steps)
    ensures Stream(FramesOf(steps[..i + 1]), perName)
            == Stream(FramesOf(steps[..i]), perName) + Repeat(steps[i].result.value, perName)
    ensures |Stream(FramesOf(steps[..i]), perName)| + Max0(perName) <= |steps| * perName || perName <= 0
  {
    FramesOfSnoc(steps, i);
    StreamSnoc(FramesOf(steps[..i]), steps[i].result.value, perName);
    LoopBound(i, |steps|, perName);
  }

  /** The trace of a loop stopped by the exception of name `i`. */
  lemma StopAt(steps: seq<Effect<Frame>>, perName: int, i: nat, written: seq<Frame>, progress: seq<real>)
    requires i < |steps| && i <= FirstRaised(steps) && steps[i].result.Raised?
    requires written == Stream(FramesOf(steps[..i]), perName)
    requires progress == ProgressTrace(|written|, |steps| * perName)
    ensures Unfold(steps, perName)
            == Trace(Failure(steps[i].result.fault), written, progress, Open,
                     Opened(steps[..i]) + steps[i].opens, ReleasedCaptures(steps[..i]) + steps[i].releases)
  {
    UnfoldRaised(steps, perName, i);
    CountSnoc(steps, i);
  }

  /** Every name drew its frame: the loop's account is the whole run. */
  lemma Finished(steps: seq<Effect<Frame>>, perName: int, i: nat)
    requires i == |steps| && i <= FirstRaised(steps)
    ensures var w := Stream(FramesOf(steps[..i]), perName);
            Unfold(steps, perName)
            == Trace(Success, w, ProgressTrace(|w|, |steps| * perName), Released,
                     Opened(steps[..i]), ReleasedCaptures(steps[..i]))
  {
    UnfoldAll(steps, perName);
  }

  /** Name `i` drew its frame: the loop's account moves past it. */
  lemma DrawnAt(steps: seq<Effect<Frame>>, perName: int, i: nat)
    requires i < |steps| && i <= FirstRaised(steps) && steps[i].result.Done?
    ensures i + 1 <= FirstRaised(steps)
    ensures AllDone(steps[..i + 1])
    ensures Stream(FramesOf(steps[..i + 1]), perName)
            == Stream(FramesOf(steps[..i]), perName) + Repeat(steps[i].result.value, perName)
    ensures |Stream(FramesOf(steps[..i]), perName)| + Max0(perName) <= |steps| * perName || perName <= 0
    ensures Opened(steps[..i + 1]) == Opened(steps[..i]) + steps[i].opens
    ensures ReleasedCaptures(steps[..i + 1]) == ReleasedCaptures(steps[..i]) + steps[i].releases
  {
    StreamStep(steps, perName, i);
    PrefixDone(steps, i + 1);
    CountSnoc(steps, i);
  }

  lemma PrefixDone(steps: seq<Effect<Frame>>, i: nat)
    requires i <= FirstRaised(steps)
    ensures AllDone(steps[..i])
  {
    var k := FirstRaised(steps);
    assert forall q :: 0 <= q < i ==> steps[..i][q] == steps[..k][q];
  }

  lemma LoopBound(i: nat, count: nat, perName: int)
    requires i < count
    ensures i * Max0(perName) + Max0(perName) <= count * Max0(perName)
  {
    MulSucc(i, Max0(perName));
    if perName > 0 {
      MulMono(i + 1, count, perName);
    }
  }

  /** The inner `for _ in range(frames_per_name)` loop: write the frame, count
      it, publish `(current_frame / total_frames) * 100`. The division is
      reached only while frames remain to be written, so never with a total
      of zero or less. */
  method WriteCopies(frame: Frame, perName: int, total: int, written: seq<Frame>, progress: seq<real>)
    returns (written': seq<Frame>, progress': seq<real>)
    requires |written| == 0 || total > 0
    requires progress == ProgressTrace(|written|, total)
    requires |written| + Max0(perName) <= total || perName <= 0
    ensures written' == written + Repeat(frame, perName)
    ensures |written'| == 0 || total > 0
    ensures progress' == ProgressTrace(|written'|, total)
  {
    written', progress' := written, progress;
    var current := |written|;
    var j := 0;
    while j < perName
      invariant 0 <= j <= Max0(perName)
      invariant written' == written + Repeat(frame, j)
      invariant current == |written'|
      invariant current == 0 || total > 0
      invariant progress' == ProgressTrace(current, total)
    {
      written' := written' + [frame];
      current := current + 1;
      var value := (current as real / total as real) * 100.0;
      ProgressSnoc(current - 1, total);
      progress' := progress' + [value];
      j := j + 1;
    }
  }

  /** The worker as written: read the names, create the writer, load the
      font, then run each name's iteration in order until one raises. Its
      result is the declarative trace. */
  method Generate(job: Job, env: Env, fetch: nat -> Effect<Background>) returns (t: Trace)
    ensures t == Expected(job, env, fetch)
  {
    var text := env.readText(job.namePath);
    if text.None? {
      return Trace(Failure(NamesUnreadable), [], [], NotCreated, 0, 0);
    }
    var names := SplitLines(text.value);
    // the writer exists from here on
    if !env.fontLoads(job.fontPath, job.textSize) {
      return Trace(Failure(FontUnloadable), [], [], Open, 0, 0);
    }
    t := WriteNames(job, env, fetch, names, FramesPerName(job.interval, job.fps));
  }

  /** The `for name in names` loop: each name's iteration in order until one
      raises; the writer is released only when the loop completes. */
  method WriteNames(job: Job, env: Env, fetch: nat -> Effect<Background>, names: seq<string>, perName: int)
    returns (t: Trace)
    ensures t == Unfold(Steps(job, env, fetch, names), perName)
  {
    var total := |names| * perName;
    var written: seq<Frame> := [];
    var progress: seq<real> := [];
    var opens, releases := 0, 0;
    ghost var steps := Steps(job, env, fetch, names);
    var i := 0;
    while i < |names|
      invariant i <= FirstRaised(steps)
      invariant AllDone(steps[..i])
      invariant written == Stream(FramesOf(steps[..i]), perName)
      invariant |written| == 0 || total > 0
      invariant progress == ProgressTrace(|written|, total)
      invariant opens == Opened(steps[..i]) && releases == ReleasedCaptures(steps[..i])
    {
      var step := Compose(job, env, names[i], fetch(i));
      assert step == steps[i];
      if step.result.Raised? {
        StopAt(steps, perName, i, written, progress);
        return Trace(Failure(step.result.fault), written, progress, Open, opens + step.opens, releases + step.releases);
      }
      DrawnAt(steps, perName, i);
      opens, releases := opens + step.opens, releases + step.releases;
      written, progress := WriteCopies(step.result.value, perName, total, written, progress);
      i := i + 1;
    }
    Finished(steps, perName, i);
    t := Trace(Success, written, progress, Released, opens, releases);
  }
}

/** What every run of the shared driver guarantees, whatever the background
    rule: the order and multiplicity of the written frames, the progress
    values, the writer's fate and the video captures left open. */
module Runs {

  import opened Optional
  import opened Lines
  import opened Schedule
  import opened Pipeline

  /** The run got past reading the names and loading the font. */
  predicate SetUp(job: Job, env: Env) {
    env.readText(job.namePath).Some? && env.fontLoads(job.fontPath, job.textSize)
  }

  function NamesOf(job: Job, env: Env): seq<string>
    requires env.readText(job.namePath).Some?
  {
    SplitLines(env.readText(job.namePath).value)
  }

  function PerName(job: Job): int {
    FramesPerName(job.interval, job.fps)
  }

  lemma {:induction false} FirstRaisedAll(steps: seq<Effect<Frame>>)
    requires AllDone(steps)
    ensures FirstRaised(steps) == |steps|
  {
    if steps != [] {
      FirstRaisedAll(steps[1..]);
    }
  }

  /** Frames reach the writer in name order, `frames_per_name` copies of each,
      every copy carrying its name (blank names included); a run that
      succeeds wrote `len(names) * frames_per_name` frames, one that fails in
      the loop wrote the full share of every name before the failing one and
      nothing of it or after it. A run that fails while setting up writes
      nothing. */
  lemma {:induction false} RunWritesNamesInOrder(job: Job, env: Env, fetch: nat -> Effect<Background>)
    ensures var t := Expected(job, env, fetch);
            && (!SetUp(job, env) ==> t.written == [] && t.progress == [] && t.outcome.Failure?)
            && (SetUp(job, env) ==>
                  var names, n := NamesOf(job, env), PerName(job);
                  && |t.written| <= |names| * Max0(n)
                  && (t.outcome.Success? ==> |t.written| == |names| * Max0(n))
                  && (n > 0 ==> forall q :: 0 <= q < |t.written| ==>
                                  0 <= q / n < |names| && t.written[q].name == names[q / n]))
  {
    if SetUp(job, env) {
      var names, n := NamesOf(job, env), PerName(job);
      assert Expected(job, env, fetch) == Unfold(Steps(job, env, fetch, names), n);
      UnfoldWritesNames(job, env, fetch, names, n);
    }
  }

  lemma UnfoldWritesNames(job: Job, env: Env, fetch: nat -> Effect<Background>, names: seq<string>, n: int)
    ensures var t := Unfold(Steps(job, env, fetch, names), n);
            && |t.written| <= |names| * Max0(n)
            && (t.outcome.Success? ==> |t.written| == |names| * Max0(n))
            && (n > 0 ==> forall q :: 0 <= q < |t.written| ==>
                            0 <= q / n < |names| && t.written[q].name == names[q / n])
  {
    var steps := Steps(job, env, fetch, names);
    var t := Unfold(steps, n);
    UnfoldOrder(steps, n);
    var k := FirstRaised(steps);
    MulMonoMax(k, |names|, n);
    StepsCarryNames(job, env, fetch, names);
  }

  /** Each iteration that draws, draws its own name. */
  lemma StepsCarryNames(job: Job, env: Env, fetch: nat -> Effect<Background>, names: seq<string>)
    ensures var steps := Steps(job, env, fetch, names);
            forall i :: 0 <= i < |names| && steps[i].result.Done? ==> steps[i].result.value.name == names[i]
  {
    var steps := Steps(job, env, fetch, names);
    forall i | 0 <= i < |names| && steps[i].result.Done?
      ensures steps[i].result.value.name == names[i]
    {
      assert steps[i] == Compose(job, env, names[i], fetch(i));
    }
  }

  /** The loop's output, item by item: position `q` holds the frame of
      iteration `q / n`, and only iterations before the first failure
      contribute. */
  lemma UnfoldOrder(steps: seq<Effect<Frame>>, n: int)
    ensures var t, k := Unfold(steps, n), FirstRaised(steps);
            && |t.written| == k * Max0(n)
            && (n > 0 ==> forall q :: 0 <= q < |t.written| ==>
                            0 <= q / n < k && steps[q / n].result.Done? && t.written[q] == steps[q / n].result.value)
  {
    var t, k := Unfold(steps, n), FirstRaised(steps);
    var frames := FramesOf(steps[..k]);
    if n > 0 {
      forall q | 0 <= q < |t.written|
        ensures 0 <= q / n < k && steps[q / n].result.Done? && t.written[q] == steps[q / n].result.value
      {
        StreamAt(frames, n, q);
        assert steps[..k][q / n] == steps[q / n];
      }
    }
  }

  lemma MulMonoMax(a: nat, b: nat, n: int)
    requires a <= b
    ensures a * Max0(n) <= b * Max0(n)
  {
    if n > 0 {
      MulMono(a, b, n);
    }
  }

  /** Every value the worker sets on the progress variable is larger than
      the one before, lies in (0, 100], and there is one per written frame;
      after the last frame of a successful run the value set is exactly 100.
      No value is set unless the total is positive. */
  lemma {:induction false} RunProgress(job: Job, env: Env, fetch: nat -> Effect<Background>)
    ensures var t := Expected(job, env, fetch);
            && |t.progress| == |t.written|
            && (forall i, j :: 0 <= i < j < |t.progress| ==> t.progress[i] < t.progress[j])
            && (forall i :: 0 <= i < |t.progress| ==> 0.0 < t.progress[i] <= 100.0)
            && (t.outcome.Success? && t.progress != [] ==> t.progress[|t.progress| - 1] == 100.0)
            && (t.progress != [] ==> SetUp(job, env) && |NamesOf(job, env)| * PerName(job) > 0)
  {
    var t := Expected(job, env, fetch);
    RunWritesNamesInOrder(job, env, fetch);
    if SetUp(job, env) && t.written != [] {
      var names, n := NamesOf(job, env), PerName(job);
      var total := |names| * n;
      assert n > 0;
      assert t.progress == ProgressTrace(|t.written|, total);
      ProgressShape(|t.written|, total);
    }
  }

  /** The writer is released exactly when the run succeeds; on a failure it is
      left open (or was never created, when the name file could not be
      read). */
  lemma RunWriterFate(job: Job, env: Env, fetch: nat -> Effect<Background>)
    ensures var t := Expected(job, env, fetch);
            && (t.outcome.Success? <==> t.writer == Released)
            && (t.writer == NotCreated <==> env.readText(job.namePath).None?)
  {
  }

  /** A background rule that releases what it opens, at most one capture per
      name, and leaves one open only when it raises. */
  ghost predicate CapturesTidy(fetch: nat -> Effect<Background>) {
    forall i: nat :: fetch(i).releases <= fetch(i).opens <= 1
                     && (fetch(i).result.Done? ==> fetch(i).releases == fetch(i).opens)
  }

  lemma {:induction false} BalancedPrefix(steps: seq<Effect<Frame>>)
    requires forall q :: 0 <= q < |steps| ==> steps[q].releases == steps[q].opens
    ensures Opened(steps) == ReleasedCaptures(steps)
  {
    if steps != [] {
      BalancedPrefix(steps[..|steps| - 1]);
    }
  }

  /** With a tidy background rule, a successful run leaves no capture open,
      and a failed one leaves at most the failing name's capture open. */
  lemma RunCaptures(job: Job, env: Env, fetch: nat -> Effect<Background>)
    requires CapturesTidy(fetch)
    ensures var t := Expected(job, env, fetch);
            && t.capturesReleased <= t.capturesOpened <= t.capturesReleased + 1
            && (t.outcome.Success? ==> t.capturesOpened == t.capturesReleased)
  {
    if SetUp(job, env) {
      var names := NamesOf(job, env);
      StepsTidyOf(job, env, fetch, names);
      UnfoldCaptures(Steps(job, env, fetch, names), PerName(job));
    }
  }

  /** Every iteration releases what it opens, at most one capture, and
      leaves it open only when it raises. */
  predicate StepsTidy(steps: seq<Effect<Frame>>) {
    forall q :: 0 <= q < |steps| ==>
      && steps[q].releases <= steps[q].opens <= 1
      && (steps[q].result.Done? ==> steps[q].releases == steps[q].opens)
  }

  lemma StepsTidyOf(job: Job, env: Env, fetch: nat -> Effect<Background>, names: seq<string>)
    requires CapturesTidy(fetch)
    ensures StepsTidy(Steps(job, env, fetch, names))
  {
    var steps := Steps(job, env, fetch, names);
    forall q | 0 <= q < |steps|
      ensures steps[q].releases <= steps[q].opens <= 1
      ensures steps[q].result.Done? ==> steps[q].releases == steps[q].opens
    {
      assert steps[q] == Compose(job, env, names[q], fetch(q));
    }
  }

  lemma UnfoldCaptures(steps: seq<Effect<Frame>>, n: int)
    requires StepsTidy(steps)
    ensures var t := Unfold(steps, n);
            && t.capturesReleased <= t.capturesOpened <= t.capturesReleased + 1
            && (t.outcome.Success? ==> t.capturesOpened == t.capturesReleased)
  {
    var k := FirstRaised(steps);
    assert forall q :: 0 <= q < k ==> steps[..k][q] == steps[q];
    BalancedPrefix(steps[..k]);
    if k < |steps| {
      CountSnoc(steps, k);
    } else {
      assert steps[..k] == steps;
    }
  }

  /** When every name's background resolves to an image the writer can
      convert and the text colour parses, the run writes every name and
      succeeds. */
  lemma RunSucceeds(job: Job, env: Env, fetch: nat -> Effect<Background>)
    requires SetUp(job, env)
    requires env.color(job.ink).Some?
    requires forall i :: 0 <= i < |NamesOf(job, env)| ==> fetch(i).result.Done? && Converts(env, job.size, fetch(i).result.value)
    ensures Expected(job, env, fetch).outcome == Success
  {
    var names := NamesOf(job, env);
    var steps := Steps(job, env, fetch, names);
    forall q | 0 <= q < |steps|
      ensures steps[q].result.Done?
    {
      assert steps[q] == Compose(job, env, names[q], fetch(q));
    }
    FirstRaisedAll(steps);
  }

  /** A run that got past its set-up succeeds exactly when every name's
      iteration draws its frame; a failed run fails with the exception of an
      iteration that raised after all iterations before it drew theirs. */
  lemma RunOutcome(job: Job, env: Env, fetch: nat -> Effect<Background>)
    requires SetUp(job, env)
    ensures var t, names := Expected(job, env, fetch), NamesOf(job, env);
            && (t.outcome == Success <==>
                  forall i :: 0 <= i < |names| ==> Compose(job, env, names[i], fetch(i)).result.Done?)
            && (t.outcome.Failure? ==>
                  exists i :: 0 <= i < |names|
                              && Compose(job, env, names[i], fetch(i)).result == Raised(t.outcome.fault)
                              && forall j :: 0 <= j < i ==> Compose(job, env, names[j], fetch(j)).result.Done?)
  {
    var t, names := Expected(job, env, fetch), NamesOf(job, env);
    var steps := Steps(job, env, fetch, names);
    var k := FirstRaised(steps);
    forall i | 0 <= i < |names|
      ensures steps[i] == Compose(job, env, names[i], fetch(i))
    {
    }
    forall j | 0 <= j < k
      ensures steps[j].result.Done?
    {
      assert steps[..k][j] == steps[j];
    }
    if k < |steps| {
      assert t.outcome == Failure(steps[k].result.fault);
      assert Compose(job, env, names[k], fetch(k)).result == Raised(t.outcome.fault);
    }
  }

  /** When each name's iteration draws its frame exactly when `ok` holds of
      the name's position, and otherwise raises `fault`, the run succeeds
      exactly when `ok` holds of every position, and otherwise fails with
      `fault`. */
  lemma RunOutcomeBy(job: Job, env: Env, fetch: nat -> Effect<Background>, ok: nat -> bool, fault: Fault)
    requires SetUp(job, env)
    requires forall i :: 0 <= i < |NamesOf(job, env)| ==>
               var c := Compose(job, env, NamesOf(job, env)[i], fetch(i)).result;
               (c.Done? <==> ok(i)) && (c.Raised? ==> c.fault == fault)
    ensures var t := Expected(job, env, fetch);
            && (t.outcome == Success <==> forall i :: 0 <= i < |NamesOf(job, env)| ==> ok(i))
            && (t.outcome.Failure? ==> t.outcome.fault == fault)
  {
    var t, names := Expected(job, env, fetch), NamesOf(job, env);
    RunOutcome(job, env, fetch);
    if t.outcome.Failure? {
      var i :| 0 <= i < |names| && Compose(job, env, names[i], fetch(i)).result == Raised(t.outcome.fault);
    }
  }

  /** A background rule that releases every capture it opens, whether or not
      the iteration then raises, leaves no capture open, whatever the
      outcome. */
  lemma RunBalanced(job: Job, env: Env, fetch: nat -> Effect<Background>)
    requires SetUp(job, env)
    requires forall i :: 0 <= i < |NamesOf(job, env)| ==> fetch(i).releases == fetch(i).opens
    ensures Expected(job, env, fetch).capturesOpened == Expected(job, env, fetch).capturesReleased
  {
    var names := NamesOf(job, env);
    var steps := Steps(job, env, fetch, names);
    var k := FirstRaised(steps);
    var reached := if k < |steps| then k + 1 else k;
    var prefix := steps[..reached];
    forall q | 0 <= q < |prefix|
      ensures prefix[q].releases == prefix[q].opens
    {
      assert prefix[q] == steps[q] == Compose(job, env, names[q], fetch(q));
    }
    BalancedPrefix(prefix);
  }

  /** When the first name's background raises, the run fails with that
      exception before writing anything. */
  lemma RunFailsAtFirst(job: Job, env: Env, fetch: nat -> Effect<Background>)
    requires SetUp(job, env)
    requires NamesOf(job, env) != []
    requires fetch(0).result.Raised?
    ensures Expected(job, env, fetch).outcome == Failure(fetch(0).result.fault)
    ensures Expected(job, env, fetch).written == []
  {
    var names := NamesOf(job, env);
    var steps := Steps(job, env, fetch, names);
    assert steps[0] == Compose(job, env, names[0], fetch(0));
  }

  lemma ExpectedUnfolds(job: Job, env: Env, fetch: nat -> Effect<Background>)
    requires SetUp(job, env)
    ensures Expected(job, env, fetch) == Unfold(Steps(job, env, fetch, NamesOf(job, env)), PerName(job))
  {
  }

  /** Every written frame shows the background its name's iteration resolved
      and the text colour of the job. */
  lemma RunBackgrounds(job: Job, env: Env, fetch: nat -> Effect<Background>)
    requires SetUp(job, env)
    requires PerName(job) > 0
    ensures var t, n := Expected(job, env, fetch), PerName(job);
            forall q :: 0 <= q < |t.written| ==>
              && fetch(ItemAt(q, n)).result.Done?
              && t.written[q].background == fetch(ItemAt(q, n)).result.value
              && env.color(job.ink).Some?
              && t.written[q].ink == env.color(job.ink).value
  {
    var t, n := Expected(job, env, fetch), PerName(job);
    var u := Unfold(Steps(job, env, fetch, NamesOf(job, env)), n);
    ExpectedUnfolds(job, env, fetch);
    UnfoldBackgrounds(job, env, fetch, NamesOf(job, env), n);
    assert t.written == u.written;
    forall q | 0 <= q < |t.written|
      ensures fetch(ItemAt(q, n)).result.Done?
      ensures t.written[q].background == fetch(ItemAt(q, n)).result.value
      ensures env.color(job.ink).Some? && t.written[q].ink == env.color(job.ink).value
    {
      assert t.written[q] == u.written[q];
    }
  }

  lemma UnfoldBackgrounds(job: Job, env: Env, fetch: nat -> Effect<Background>, names: seq<string>, n: int)
    requires n > 0
    ensures var t := Unfold(Steps(job, env, fetch, names), n);
            forall q :: 0 <= q < |t.written| ==>
              && fetch(ItemAt(q, n)).result.Done?
              && t.written[q].background == fetch(ItemAt(q, n)).result.value
              && env.color(job.ink).Some?
              && t.written[q].ink == env.color(job.ink).value
  {
    var steps := Steps(job, env, fetch, names);
    var t := Unfold(steps, n);
    UnfoldOrder(steps, n);
    StepsCarryBackgrounds(job, env, fetch, names);
    forall q | 0 <= q < |t.written|
      ensures fetch(ItemAt(q, n)).result.Done?
      ensures t.written[q].background == fetch(ItemAt(q, n)).result.value
      ensures env.color(job.ink).Some? && t.written[q].ink == env.color(job.ink).value
    {
      var i := ItemAt(q, n);
      assert i < |names| && steps[i].result.Done? && t.written[q] == steps[i].result.value;
    }
  }

  lemma StepsCarryBackgrounds(job: Job, env: Env, fetch: nat -> Effect<Background>, names: seq<string>)
    ensures var steps := Steps(job, env, fetch, names);
            forall i :: 0 <= i < |names| && steps[i].result.Done? ==>
              && fetch(i).result.Done?
              && steps[i].result.value.background == fetch(i).result.value
              && env.color(job.ink).Some?
              && steps[i].result.value.ink == env.color(job.ink).value
  {
    var steps := Steps(job, env, fetch, names);
    forall i | 0 <= i < |names| && steps[i].result.Done?
      ensures fetch(i).result.Done? && steps[i].result.value.background == fetch(i).result.value
      ensures env.color(job.ink).Some? && steps[i].result.value.ink == env.color(job.ink).value
    {
      assert steps[i] == Compose(job, env, names[i], fetch(i));
    }
  }

  /** A run depends on the background rule only through the backgrounds of
      the names in the file. */
  lemma SameBackgroundsSameRun(job: Job, env: Env, f: nat -> Effect<Background>, g: nat -> Effect<Background>)
    requires SetUp(job, env) ==> forall i :: 0 <= i < |NamesOf(job, env)| ==> f(i) == g(i)
    ensures Expected(job, env, f) == Expected(job, env, g)
  {
    if SetUp(job, env) {
      var names := NamesOf(job, env);
      assert Steps(job, env, f, names) == Steps(job, env, g, names);
    }
  }

  /** Every written frame places its name so that the extents of the name's
      bounding box are centred, to within one pixel. */
  lemma RunCentres(job: Job, env: Env, fetch: nat -> Effect<Background>)
    ensures var t := Expected(job, env, fetch);
            forall q :: 0 <= q < |t.written| ==> Centred(job, env, t.written[q])
  {
    if SetUp(job, env) && PerName(job) > 0 {
      var t, n := Expected(job, env, fetch), PerName(job);
      var names := NamesOf(job, env);
      var steps := Steps(job, env, fetch, names);
      ExpectedUnfolds(job, env, fetch);
      UnfoldOrder(steps, n);
      forall q | 0 <= q < |t.written|
        ensures Centred(job, env, t.written[q])
      {
        var i := q / n;
        assert steps[i] == Compose(job, env, names[i], fetch(i));
      }
    } else if SetUp(job, env) {
      RunWritesNamesInOrder(job, env, fetch);
    }
  }
}

=== FILE: scenarios.dfy ===
/** Worked runs with concrete inputs: the forms' default timing, a name file
    with a blank line, and a complete solid-colour run of two names. */
module Scenarios {

  import opened Optional
  import opened Lines
  import opened Schedule
  import opened Pipeline
  import opened Runs
  import MainRun

  /** The forms' defaults, 0.2 seconds at 30 frames per second, give every
      name 6 frames. */
  lemma DefaultTiming()
    ensures FramesPerName(0.2, 30) == 6
  {
  }

  /** Half a frame's worth of time gives a name no frame at all. */
  lemma ShortIntervalWritesNothing()
    ensures FramesPerName(0.05, 10) == 0
    ensures FramesPerName(-0.15, 10) == -1
  {
  }

  /** Windows line ends are one boundary, a blank line stays as an empty
      name, and the final line end adds nothing. */
  lemma BlankLineKept()
    ensures SplitLines("Ann\r\n\nBo\n") == ["Ann", "", "Bo"]
  {
    FirstLineCrLf();
    BlankLine();
    LastLine();
  }

  lemma FirstLineCrLf()
    ensures SplitLines("Ann\r\n\nBo\n") == ["Ann"] + SplitLines("\nBo\n")
  {
    assert "Ann\r\n\nBo\n" == "Ann" + "\r\n\nBo\n";
    SplitLinesAfter("Ann", "\r\n\nBo\n");
    assert BreakWidth("\r\n\nBo\n", 0) == 2;
    assert "\r\n\nBo\n"[2..] == "\nBo\n";
  }

  lemma BlankLine()
    ensures SplitLines("\nBo\n") == [""] + SplitLines("Bo\n")
  {
    assert "" + "\nBo\n" == "\nBo\n";
    SplitLinesAfter("", "\nBo\n");
    assert BreakWidth("\nBo\n", 0) == 1;
    assert "\nBo\n"[1..] == "Bo\n";
  }

  lemma LastLine()
    ensures SplitLines("Bo\n") == ["Bo"]
  {
    assert "Bo\n" == "Bo" + "\n";
    SplitLinesAfter("Bo", "\n");
    assert "\n"[1..] == [];
  }

  lemma TwoLines()
    ensures SplitLines("Ann\nBo\n") == ["Ann", "Bo"]
  {
    assert "Ann\nBo\n" == "Ann" + "\nBo\n";
    SplitLinesAfter("Ann", "\nBo\n");
    assert "\nBo\n"[1..] == "Bo\n";
    LastLine();
  }

  /** A frame 0 pixels wide on a solid colour: `Image.new` makes the empty
      canvas, but the conversion for the writer refuses it, so the first
      name fails the run, nothing is written and the writer is left open. */
  lemma EmptyFrameFails(job: Job, env: Env)
    requires job.mode == MainRun.SolidLabel && job.size.width == 0
    requires env.readText(job.namePath) == Some("Ann\nBo\n")
    requires env.fontLoads(job.fontPath, job.textSize)
    requires env.canvasOk(job.size) && env.color(job.bgValue).Some? && env.color(job.ink).Some?
    ensures var t := MainRun.Run(job, env);
            && t.outcome == Failure(ConversionFailed)
            && t.written == []
            && t.writer == Open
  {
    TwoLines();
    assert NamesOf(job, env) == ["Ann", "Bo"];
    MainRun.SolidRun(job, env);
    var fetch := MainRun.Fetcher(job, env);
    var steps := Steps(job, env, fetch, NamesOf(job, env));
    assert steps[0] == Compose(job, env, "Ann", fetch(0));
    assert FirstRaised(steps) == 0;
  }

  /** Two names at 0.2 seconds and 10 frames per second on a solid colour:
      each name is written twice, in order, and the worker sets 25, 50, 75 and
      100 after the four writes. */
  lemma TwoNamesSolid(job: Job, env: Env)
    requires job.mode == MainRun.SolidLabel && job.interval == 0.2 && job.fps == 10
    requires env.readText(job.namePath) == Some("Ann\nBo\n")
    requires env.fontLoads(job.fontPath, job.textSize)
    requires Drawable(job.size)
    requires env.canvasOk(job.size) && env.color(job.bgValue).Some? && env.color(job.ink).Some?
    ensures var t := MainRun.Run(job, env);
            && t.outcome == Success
            && |t.written| == 4
            && t.written[0].name == t.written[1].name == "Ann"
            && t.written[2].name == t.written[3].name == "Bo"
            && t.progress == [25.0, 50.0, 75.0, 100.0]
  {
    TwoLines();
    assert NamesOf(job, env) == ["Ann", "Bo"];
    assert PerName(job) == 2;
    var t := MainRun.Run(job, env);
    MainRun.SolidRun(job, env);
    RunWritesNamesInOrder(job, env, MainRun.Fetcher(job, env));
    assert t.written[0].name == "Ann" by { assert 0 / 2 == 0; }
    assert t.written[1].name == "Ann" by { assert 1 / 2 == 0; }
    assert t.written[2].name == "Bo" by { assert 2 / 2 == 1; }
    assert t.written[3].name == "Bo" by { assert 3 / 2 == 1; }
    TwoNamesProgress(job, env);
  }

  lemma TwoNamesProgress(job: Job, env: Env)
    requires SetUp(job, env) && |NamesOf(job, env)| == 2 && PerName(job) == 2
    requires |MainRun.Run(job, env).written| == 4
    ensures MainRun.Run(job, env).progress == [25.0, 50.0, 75.0, 100.0]
  {
    var t := MainRun.Run(job, env);
    var steps := Steps(job, env, MainRun.Fetcher(job, env), NamesOf(job, env));
    assert t == Unfold(steps, 2);
    assert t.progress == ProgressTrace(4, 4);
    assert t.progress[0] == 25.0 && t.progress[1] == 50.0 && t.progress[2] == 75.0 && t.progress[3] == 100.0;
  }
}

=== FILE: schedule.dfy ===
/** The timing scheduler: how many identical frames each name gets, the order
    in which the frames reach the video writer, and the progress percentage
    published after every write. */
module Schedule {

  function Max0(n: int): nat {
    if n < 0 then 0 else n
  }

  /** Python's `int(interval * fps)`: the product truncated toward zero (for
      a negative product that is the ceiling, not the floor). */
  function FramesPerName(interval: real, fps: int): (n: int)
    ensures interval * fps as real >= 0.0 ==> n as real <= interval * fps as real < n as real + 1.0
    ensures interval * fps as real < 0.0 ==> n as real - 1.0 < interval * fps as real <= n as real
  {
    var p := interval * fps as real;
    if p >= 0.0 then p.Floor else -((-p).Floor)
  }

  /** Truncation never moves the count away from zero: it is never larger in
      size than the exact product, and it keeps the product's sign. */
  lemma FramesPerNameTowardZero(interval: real, fps: int)
    ensures var n := FramesPerName(interval, fps);
            var p := interval * fps as real;
            (if n < 0 then -n else n) as real <= (if p < 0.0 then -p else p)
            && (n > 0 ==> p >= 1.0) && (n < 0 ==> p <= -1.0)
            && (-1.0 < p < 1.0 ==> n == 0)
  {
  }

  /** `n` copies of `x`; none when `n` is zero or negative, as with
      `range(n)`. */
  function Repeat<T>(x: T, n: int): (r: seq<T>)
    ensures |r| == Max0(n)
    ensures forall i :: 0 <= i < |r| ==> r[i] == x
    decreases Max0(n)
  {
    if n <= 0 then [] else [x] + Repeat(x, n - 1)
  }

  /** What the writer receives: for each item in order, `n` copies of it. */
  function Stream<T>(items: seq<T>, n: int): (r: seq<T>)
    ensures |r| == |items| * Max0(n)
  {
    if items == [] then []
    else Stream(items[..|items| - 1], n) + Repeat(items[|items| - 1], n)
  }

  lemma StreamSnoc<T>(items: seq<T>, x: T, n: int)
    ensures Stream(items + [x], n) == Stream(items, n) + Repeat(x, n)
  {
    assert (items + [x])[..|items|] == items;
  }

  lemma MulSucc(m: nat, n: int)
    ensures (m + 1) * n == m * n + n
  {
  }

  lemma MulMono(a: nat, b: nat, n: int)
    requires a <= b
    requires n > 0
    ensures a * n <= b * n
  {
  }

  lemma DivMod(k: int, n: int)
    requires n > 0
    ensures k == (k / n) * n + k % n
    ensures 0 <= k % n < n
  {
  }

  /** The item whose copies include position `q` of a stream with `n`
      copies per item. */
  function ItemAt(q: nat, n: int): nat
    requires n > 0
  {
    q / n
  }

  lemma LessFromMul(a: int, b: int, n: int)
    requires n > 0
    requires a * n < b * n
    ensures a < b
  {
  }

  /** The copies of one item are contiguous: item `i` fills exactly positions
      `i*n` to `i*n + n - 1` of the stream. */
  lemma {:induction false} StreamBlock<T>(items: seq<T>, n: int, i: nat)
    requires n > 0
    requires i < |items|
    ensures (i + 1) * n <= |Stream(items, n)|
    ensures Stream(items, n)[i * n .. (i + 1) * n] == Repeat(items[i], n)
  {
    var m := |items| - 1;
    var front := items[..m];
    StreamLast(items, n);
    var head := Stream(front, n);
    var lo, hi := i * n, (i + 1) * n;
    MulSucc(i, n);
    if i < m {
      MulMono(i + 1, m, n);
      StreamBlock(front, n, i);
      SliceOfPrefix(head, Repeat(items[m], n), lo, hi);
    } else {
      SliceOfSuffix(head, Repeat(items[m], n));
    }
  }

  lemma StreamLast<T>(items: seq<T>, n: int)
    requires items != []
    ensures Stream(items, n) == Stream(items[..|items| - 1], n) + Repeat(items[|items| - 1], n)
    ensures |Stream(items[..|items| - 1], n)| == (|items| - 1) * Max0(n)
  {
  }

  lemma SliceOfPrefix<T>(a: seq<T>, b: seq<T>, lo: nat, hi: nat)
    requires lo <= hi <= |a|
    ensures (a + b)[lo .. hi] == a[lo .. hi]
  {
  }

  lemma SliceOfSuffix<T>(a: seq<T>, b: seq<T>)
    ensures (a + b)[|a| .. |a| + |b|] == b
  {
  }

  /** The `k`-th frame written belongs to item `k / n`: the stream is the
      in-order concatenation of `n` copies of each item, nothing else. */
  lemma StreamAt<T>(items: seq<T>, n: int, k: nat)
    requires n > 0
    requires k < |Stream(items, n)|
    ensures 0 <= k / n < |items|
    ensures Stream(items, n)[k] == items[k / n]
  {
    BlockOf(k, n, |items|);
    var i := k / n;
    var lo := i * n;
    StreamAtOffset(items, n, i, lo, k - lo);
  }

  lemma StreamAtOffset<T>(items: seq<T>, n: int, i: nat, lo: int, j: nat)
    requires n > 0
    requires i < |items| && lo == i * n
    requires j < n
    ensures lo + j < |Stream(items, n)|
    ensures Stream(items, n)[lo + j] == items[i]
  {
    MulSucc(i, n);
    StreamBlock(items, n, i);
    var r := Stream(items, n);
    assert r[lo + j] == r[i * n .. (i + 1) * n][j];
  }

  lemma BlockOf(k: nat, n: int, len: nat)
    requires n > 0
    requires k < len * Max0(n)
    ensures 0 <= k / n < len
    ensures (k / n) * n <= k < (k / n + 1) * n
  {
    DivMod(k, n);
    MulSucc(k / n, n);
    LessFromMul(k / n, len, n);
  }

  /** `(current / total) * 100`, the value the worker sets on the progress
      variable. */
  function Progress(current: int, total: int): real
    requires total != 0
  {
    (current as real / total as real) * 100.0
  }

  /** The progress values published after each of the first `count` writes. */
  function ProgressTrace(count: nat, total: int): (ps: seq<real>)
    requires count == 0 || total > 0
    ensures |ps| == count
  {
    seq(count, j requires 0 <= j < count => Progress(j + 1, total))
  }

  /** Progress strictly increases from one write to the next, never exceeds
      100 while no more than `total` frames are written, and is exactly 100
      after the last of `total` writes. */
  lemma ProgressShape(count: nat, total: int)
    requires total > 0
    requires count <= total
    ensures var ps := ProgressTrace(count, total);
            && (forall i, j :: 0 <= i < j < count ==> ps[i] < ps[j])
            && (forall i :: 0 <= i < count ==> 0.0 < ps[i] <= 100.0)
            && (count == total ==> ps[count - 1] == 100.0)
  {
    var ps := ProgressTrace(count, total);
    forall i, j | 0 <= i < j < count
      ensures ps[i] < ps[j]
    {
      assert ps[i] == Progress(i + 1, total) && ps[j] == Progress(j + 1, total);
      ProgressRises(i + 1, j + 1, total);
    }
    forall i | 0 <= i < count
      ensures 0.0 < ps[i] <= 100.0
    {
      assert ps[i] == Progress(i + 1, total);
      ProgressBounded(i + 1, total);
    }
    if count == total {
      assert ps[count - 1] == Progress(total, total);
      ProgressFull(total);
    }
  }

  lemma ProgressFull(total: int)
    requires total > 0
    ensures Progress(total, total) == 100.0
  {
    var t := total as real;
    assert t / t == 1.0;
  }

  lemma ProgressRises(a: nat, b: nat, total: int)
    requires total > 0 && a < b
    ensures Progress(a, total) < Progress(b, total)
  {
    DivideMono(a as real, b as real, total as real);
  }

  lemma ProgressBounded(a: nat, total: int)
    requires 0 < a <= total
    ensures 0.0 < Progress(a, total) <= 100.0
  {
    var x := a as real / total as real;
    assert x * total as real == a as real;
    assert 0.0 < x <= 1.0;
  }

  lemma DivideMono(a: real, b: real, t: real)
    requires a < b && t > 0.0
    ensures a / t < b / t
  {
    assert b / t - a / t == (b - a) / t;
  }

  /** A progress value read back as a frame count: the value set after `k`
      writes is the fraction `k / total` of the full run. */
  lemma ProgressCountsWrites(count: nat, total: int, k: nat)
    requires total > 0
    requires 0 < k <= count
    ensures ProgressTrace(count, total)[k - 1] * total as real == 100.0 * k as real
  {
  }
}
